=== FILE: README.md ===
# repo-policy-compliance, modelled in Dafny

This project models the decision engine of repo-policy-compliance. The
engine decides whether a CI job on a GitHub repository may run. It does so
by composing small checks over repository facts, under a policy document
that says which checks are enabled. The model covers these parts:

- **Quote stripping** (`comment.py`). Lines whose first non-blank character
  is `>` are removed. The authorization check relies on this, so that a
  quoted approval never counts.
- **The policy document** (`policy.py`). This covers the job types and
  their properties, and the `ALL` document. It also covers validation of a
  document (`check`) and the lookup of an enabled flag (`enabled`).
- **The checks of `check.py`**:
  - branch protection;
  - review protection of the target branch;
  - the outside-collaborator audit;
  - the external-fork predicate;
  - the fork execution authorization (`execute_job`).
- **The package entry points of `__init__.py`**. These are the older
  variants of the checks, plus `all_`. `all_` validates the policy and then
  runs the enabled checks in a fixed order. It returns the first failure.
- **The one-time runner token store** (`database.py`).

The repository host's API is not modelled. Its answers are plain values
passed to the checks (module `Provider`):

- a branch record: protection flag, signature requirement, review
  requirement;
- commit listings with their verification flags;
- the open pull requests with their comments;
- collaborator listings.

Every check is a total function that returns a `Report`. The token store is
a class whose methods update its set of tokens.

The project has eight modules, one per file:

- `Strings`: containment, prefixes and Python `repr` of strings and tuples.
- `Reports`: the `Result`/`Report` pair shared by `check.py` and
  `__init__.py`.
- `Provider`: the repository facts.
- `Comment`, `Policy`, `Check`, `Compliance` (`__init__.py`) and `Database`.

## Model

| member | source | states |
|---|---|---|
| Comment.TrimStart | repo_policy_compliance/comment.py:17 | the result is a suffix of the line, every dropped character is blank, and the result does not start with a blank |
| Comment.IsQuoted | repo_policy_compliance/comment.py:17 | a line is quoted exactly when its first character that is not blank is '>' |
| Comment.Lines | repo_policy_compliance/comment.py:16 | a text splits into no lines exactly when it is empty; Comment.JoinLines and Comment.LinesOfJoin make joining its inverse |
| Comment.Unquoted | repo_policy_compliance/comment.py:17 | a line is kept exactly when it is an input line and not quoted; never more lines than the input; order and multiplicity follow from Comment.UnquotedAppend |
| Comment.UnquotedAppend | repo_policy_compliance/comment.py:17 | the filter keeps the order and the multiplicity of the lines: filtering a concatenation is concatenating the filtered parts |
| Comment.LinesHaveNoNewline | repo_policy_compliance/comment.py:16 | no line produced by splitting contains a newline |
| Comment.JoinLines | repo_policy_compliance/comment.py:16-17 | joining the split lines with "\n" gives back the text, less one final newline |
| Comment.LinesOfJoin | repo_policy_compliance/comment.py:16-17 | splitting lines without newlines after joining them gives them back, less one final empty line |
| Comment.RemoveQuoteLines | repo_policy_compliance/comment.py:7-17 | a one-line body strips to the empty string when it is quoted and to itself otherwise; the lemmas below give the general case |
| Comment.EmptyBody | repo_policy_compliance/comment.py:16-17 | the empty comment strips to the empty string |
| Comment.OutputLinesAreUnquotedLines | repo_policy_compliance/comment.py:16-17 | the lines of the result are exactly the unquoted input lines, in their order |
| Comment.NoQuotedLineSurvives | repo_policy_compliance/comment.py:17 | no line of the result is quoted |
| Comment.UnquotedBodyUnchanged | repo_policy_compliance/comment.py:16-17 | a body without quoted lines comes back unchanged, apart from one final newline |
| Comment.AllQuotedYieldsEmpty | repo_policy_compliance/comment.py:17 | a body whose lines are all quoted strips to the empty string |
| Comment.IdempotentWithoutTrailingNewline | repo_policy_compliance/comment.py:16-17 | stripping a stripped body again changes nothing when the result does not end in a newline |
| Comment.NoMarkerCharacter | repo_policy_compliance/comment.py:16-17 | a body without any '>' strips to itself, less one final newline |
| Comment.NotIdempotentOnTrailingBlankLines | repo_policy_compliance/comment.py:16-17 | "a\n\n\n" strips to "a\n\n", and stripping that again gives "a\n" |
| Comment.FoundIffInUnquotedLine | repo_policy_compliance/comment.py:16-17 | a marker without newlines is found in the stripped body exactly when some unquoted line contains it |
| Policy.JobTypeNamed | repo_policy_compliance/policy.py:15-24 | maps each job type name back to the job type it names |
| Policy.PropertyNames | repo_policy_compliance/policy.py:27-52 | the names of a job type are exactly the names of its properties: every property of the job type is named, and every name belongs to one of its properties |
| Policy.SchemaError | repo_policy_compliance/policy.py:87-92 | the validator finds no error exactly when the document satisfies the schema |
| Policy.InvalidReason | repo_policy_compliance/policy.py:94-95 | the reason starts with "invalid policy document" and contains the validator's message |
| Policy.Check | repo_policy_compliance/policy.py:78-95 | the result is true exactly when the document is valid; a reason is present exactly when the result is false, and then starts with "invalid policy document" |
| Policy.Enabled | repo_policy_compliance/policy.py:98-117 | only properties known to the job type can be enabled |
| Policy.EnabledLookup | repo_policy_compliance/policy.py:113-117 | an absent job type, or an absent property, reads as disabled; otherwise the stored flag decides |
| Policy.AllEnablesEverything | repo_policy_compliance/policy.py:55-63 | ALL is valid, and it enables exactly the known properties of every job type |
| Policy.EmptyDocumentValid | repo_policy_compliance/policy.py:91-93 | `{}` is a valid document |
| Policy.UnknownJobTypeInvalid | repo_policy_compliance/policy.py:91-95 | an unknown top-level key is invalid, and the reason names additional properties |
| Policy.UnknownPropertyInvalid | repo_policy_compliance/policy.py:91-95 | an unknown property under a job type is invalid, and the reason names additional properties |
| Policy.MissingEnabledInvalid | repo_policy_compliance/policy.py:91-95 | a rule without `enabled` is invalid, and the reason says it is required |
| Policy.SingleEnabledPropertyValid | repo_policy_compliance/policy.py:91-93 | one known property with `{"enabled": true}` is valid, and that property is then enabled |
| Provider.Logins | repo_policy_compliance/check.py:221-225 | the set of logins contains exactly the logins of the listing |
| Provider.Shas | repo_policy_compliance/__init__.py:276-278 | the set of SHAs contains exactly the SHAs of the listing |
| Check.BranchProtected | repo_policy_compliance/check.py:65-79 | fails exactly when the branch is not protected; the reason starts with the failure banner and names the branch |
| Check.TargetBranchProtection | repo_policy_compliance/check.py:84-133 | passes exactly when the branch is protected and, if it is the default branch or the source is another repository, reviews are required, stale reviews are dismissed and nobody can bypass them; a failure names the branch |
| Check.ReviewsReport | repo_policy_compliance/check.py:109-131 | passes exactly when reviews are required, stale reviews are dismissed and no user, team or app can bypass them; a failure names the branch |
| Check.ReviewsNotRequiredReason | repo_policy_compliance/check.py:111-116 | without required reviews, the review checks fail first on that, behind the failure banner |
| Check.StaleReviewsReason | repo_policy_compliance/check.py:117-121 | with required reviews but stale reviews kept, they fail on that next, whatever the bypass allowances |
| Check.BypassReason | repo_policy_compliance/check.py:122-131 | with stale reviews dismissed, bypass allowances fail last |
| Check.TargetBranchProtectionOrder | repo_policy_compliance/check.py:102-133 | protection is checked first; the review checks decide only on a protected branch they apply to, and any other protected branch passes |
| Check.InternalFeatureTargetPasses | repo_policy_compliance/check.py:108-133 | a protected target that is not the default branch, with a source from the same repository, passes whatever its review settings |
| Check.HigherPermissionLogins | repo_policy_compliance/check.py:153-157 | lists the login of every collaborator whose role is not "read", and never more logins than there are collaborators; that nothing else is listed is Check.HigherPermissionLoginsMembers |
| Check.HigherPermissionLoginsMembers | repo_policy_compliance/check.py:153-157 | a login is listed exactly when some collaborator with that login has a role other than "read" |
| Check.HigherPermissionLoginsAppend | repo_policy_compliance/check.py:153-157 | the filter keeps listing order: it distributes over concatenation |
| Check.CollaboratorsReason | repo_policy_compliance/check.py:159-167 | the reason text after the failure banner is not empty and names every offending login |
| Check.Collaborators | repo_policy_compliance/check.py:138-169 | fails exactly when some outside collaborator has a role other than "read"; the reason is the failure banner followed by the text rendered from exactly the offending logins, in listing order, so it names each of them |
| Check.Owner | repo_policy_compliance/check.py:193 | the owner is the prefix of the repository name up to its first '/' |
| Check.BranchExternalFork | repo_policy_compliance/check.py:172-196 | external exactly when the source is another repository whose owner does not have push permission; a source named "login/…" for a pusher's login is never external |
| Check.ForkOfPusherIsNotExternal | repo_policy_compliance/check.py:189-196 | the owner of "owner/name" is "owner", so a fork owned by a pusher is not external |
| Check.FindPull | repo_policy_compliance/check.py:236 | finds nothing exactly when no open pull request has the branch as head; otherwise returns the first one that does |
| Check.AuthorizationComments | repo_policy_compliance/check.py:256-259 | keeps exactly the comments whose stripped body contains the authorization string; it is empty exactly when none does |
| Check.Approves | repo_policy_compliance/check.py:256-273 | a comment approves only when a user with the required permission wrote it, and, for a SHA without newlines, exactly when one of its unquoted lines contains the authorization string |
| Check.ForkAuthorization | repo_policy_compliance/check.py:234-282 | on the fork path, passes exactly when the first open pull request for the branch has a comment that carries the authorization string outside quoted lines and is written by an authorized user |
| Check.ExecuteJob | repo_policy_compliance/check.py:201-282 | passes exactly when the branch is not from an external fork, or the first pull request for the branch has a comment that carries the authorization string outside quoted lines and is written by a pusher |
| Check.ForkWithoutPullFails | repo_policy_compliance/check.py:236-241 | on the fork path, without an open pull request for the branch, fails and names the branch |
| Check.ForkWithoutMarkerFails | repo_policy_compliance/check.py:255-268 | on the fork path, a pull request whose comments all lack the authorization string fails, and the reason echoes the expected string |
| Check.ForkUnauthorizedCommentFails | repo_policy_compliance/check.py:270-281 | on the fork path, a pull request with authorization comments none of whose authors may authorize fails, and the reason starts with the banner followed by the unauthorized-author message |
| Check.UnauthorizedReport | repo_policy_compliance/check.py:270-281 | in that case the report is the failure whose reason is the banner, the unauthorized-author message, the explanation and the pull request context |
| Check.QuotedApprovalNeverCounts | repo_policy_compliance/check.py:255-259 | on the fork path, for any set of authorized users, an approval that appears only in quoted lines never authorizes the run |
| Compliance.CheckBranchProtected | repo_policy_compliance/__init__.py:68-81 | fails exactly when the branch is not protected; the reason names the branch |
| Compliance.CheckSignedCommitsRequired | repo_policy_compliance/__init__.py:84-95 | fails exactly when signed commits are not required; the reason names the branch |
| Compliance.ReviewChecks | repo_policy_compliance/__init__.py:211-232 | passes exactly when code-owner reviews are required, stale reviews are dismissed, nobody can bypass them and signed commits are required |
| Compliance.TargetBranchProtectionAsWritten | repo_policy_compliance/__init__.py:201-234 | raises exactly when the branch is protected but reviews are not required; otherwise returns the corrected report |
| Compliance.TargetBranchProtectionRaisesWithoutReviews | repo_policy_compliance/__init__.py:208-211 | a protected branch that requires signatures but no reviews makes the code as written raise, where the corrected check fails |
| Compliance.TargetBranchProtection | repo_policy_compliance/__init__.py:188-234 | passes exactly when the branch is protected, enforces code-owner reviews with stale reviews dismissed and no bypass allowances, and requires signed commits |
| Compliance.TargetBranchProtectionOrder | repo_policy_compliance/__init__.py:205-234 | protection is checked first, then required reviews (the corrected check); on a protected branch with reviews the review checks decide |
| Compliance.ReviewChecksOrder | repo_policy_compliance/__init__.py:211-232 | the first failing step decides the reason: code-owner reviews, stale reviews, bypass allowances, signed commits; every reason names the branch |
| Compliance.UnsignedUniqueCommits | repo_policy_compliance/__init__.py:280-287 | keeps exactly the source commits that are missing from the target history and unverified |
| Compliance.FirstUnsignedUnique | repo_policy_compliance/__init__.py:280-288 | finds nothing exactly when every source commit is in the target history or verified; otherwise it finds such a commit, and no commit listed before it is one |
| Compliance.FirstUnsignedIsFirstOfFilter | repo_policy_compliance/__init__.py:280-288 | the commit found is the first of the filtered listing, so listing order decides |
| Compliance.BranchAgainstItselfHasNoUnsigned | repo_policy_compliance/__init__.py:276-288 | a listing compared with its own SHAs yields no unsigned unique commit |
| Compliance.UnsignedCommitReason | repo_policy_compliance/__init__.py:291 | the reason names the branch and the SHA of the commit |
| Compliance.SourceBranchProtection | repo_policy_compliance/__init__.py:238-294 | passes exactly when the source is a fork, or the branch is protected, requires signatures, and every source commit is in the target history or verified; on a branch of the same repository an unprotected branch gives the protection report, then a branch without required signatures gives the signatures report, and only then does a failure carry the unsigned-commit reason for the first offending commit |
| Compliance.SourceBranchProtectionOrder | repo_policy_compliance/__init__.py:266-272 | protection is checked before signed commits, and each failure starts with its own reason and names the branch |
| Compliance.SourceEqualToTargetPasses | repo_policy_compliance/__init__.py:266-294 | a protected, signature-requiring branch compared with itself passes |
| Compliance.Collaborators | repo_policy_compliance/__init__.py:298-328 | fails exactly when some outside collaborator has a role other than "read"; the reason is the text rendered from exactly the offending logins, in listing order, so it names each of them |
| Compliance.CollaboratorsBannerOnly | repo_policy_compliance/__init__.py:319-326 | this audit and the check.py audit agree, and the check.py reason is the failure banner followed by this reason |
| Compliance.ExecuteJob | repo_policy_compliance/__init__.py:332-403 | passes exactly when the source is the same repository, or the first pull request for the branch has a comment that carries the authorization string outside quoted lines and is written by a maintainer |
| Compliance.ExecuteJobVariantsAgreeOnExternalForks | repo_policy_compliance/__init__.py:352-403 | on an external fork, this variant and the check.py variant decide alike when pushers and maintainers are the same users |
| Compliance.RunCheck | repo_policy_compliance/__init__.py:134-182 | every report of a check of `all_` is valid |
| Compliance.Gate | repo_policy_compliance/__init__.py:134-171 | a check is enabled only when its property names a well-formed rule of the document whose `enabled` flag is set, and on a well-formed rule it is enabled exactly when that flag is true; an absent property, or a document that is not an object, enables nothing |
| Compliance.Evaluate | repo_policy_compliance/__init__.py:134-182 | gives every check its report on the facts of the run; every report is valid |
| Compliance.EnabledReports | repo_policy_compliance/__init__.py:134-182 | holds the report of every enabled check, and only those |
| Compliance.RunEnabled | repo_policy_compliance/__init__.py:134-184 | the early returns yield a valid report when every check report is valid, and a pass carries no reason |
| Compliance.RunEnabledIsFirstEnabledFailure | repo_policy_compliance/__init__.py:134-184 | for any document and any check reports, the early returns give the first failure among the enabled reports, in order, and a pass when there is none |
| Compliance.EnabledReportsAllGated | repo_policy_compliance/__init__.py:134-182 | when every listed check is enabled, the enabled reports are the reports of all of them, in order |
| Compliance.RunEnabledPassesIffEnabledPass | repo_policy_compliance/__init__.py:134-184 | for any document and any check reports, the run passes exactly when every enabled check passes |
| Compliance.RunEnabledFailureIsFirstEnabledFailure | repo_policy_compliance/__init__.py:134-182 | for any document and any check reports, a failure is the report of an enabled check, and every enabled check before it in the order passed |
| Compliance.SingleEnabledCheckDecides | repo_policy_compliance/__init__.py:134-184 | when a document enables a single check of the order, that check's failure is the result, and otherwise the run passes |
| Compliance.OnlyCollaboratorsEnabled | repo_policy_compliance/__init__.py:134-184 | a document that enables only the collaborators check returns that check's failure or a pass, whatever the other three checks report |
| Compliance.EveryCheckEnabledRunsEveryCheck | repo_policy_compliance/__init__.py:134-184 | a document that enables every check returns the first failure among all four reports, in check order |
| Compliance.FlatAllRunsEveryCheck | repo_policy_compliance/__init__.py:125-184 | the default document returns the first failure among all four reports, in check order |
| Compliance.FirstFailure | repo_policy_compliance/__init__.py:134-184 | passes, without a reason, exactly when every report passes; otherwise returns a failing report such that every report before it passes |
| Compliance.All | repo_policy_compliance/__init__.py:105-184 | every report `all_` returns is valid |
| Compliance.AllIsFirstEnabledFailure | repo_policy_compliance/__init__.py:105-184 | on an accepted policy, returns the first failure among the enabled checks in the order target, source, collaborators, execute job, and a pass when none fails |
| Compliance.InvalidCustomDocumentFails | repo_policy_compliance/__init__.py:127-129 | an invalid custom document fails with the validator's reason, whatever the facts |
| Compliance.DefaultRunsEveryCheck | repo_policy_compliance/__init__.py:125-184 | the default policy returns the first failure among the reports of all four checks on the facts of the run, in check order |
| Compliance.FlatAllGatesEveryCheck | repo_policy_compliance/__init__.py:125-126 | the default document enables every pull request check |
| Compliance.DisabledCheckNeverDecides | repo_policy_compliance/__init__.py:134-182 | on any document and any check reports, a failing check the document does not enable is never the result, unless an enabled check reports the same |
| Compliance.PassesWhenNoEnabledCheckFails | repo_policy_compliance/__init__.py:184 | when no enabled check fails, the result is a pass without a reason |
| Compliance.ValidCustomDocumentGatesNothing | repo_policy_compliance/__init__.py:127-136 | a valid custom document enables none of the flat gates, so the run passes whatever the facts |
| Database.TokenStore.constructor | repo_policy_compliance/database.py:8 | the store starts empty |
| Database.TokenStore.AddToken | repo_policy_compliance/database.py:11-17 | the token is added; adding a present token changes nothing |
| Database.TokenStore.CheckToken | repo_policy_compliance/database.py:20-32 | reports whether the token was present and removes only it; an unknown token leaves the store unchanged |
| Database.AddThenCheckTwice | repo_policy_compliance/database.py:17-31 | after adding a token the first check accepts it and the second rejects it |
| Database.ReAddRestores | repo_policy_compliance/database.py:17-31 | a consumed token is accepted again once it is re-added |

## Left out

- The repository host client is not part of this model: `github_client.py`, `get_branch`, the `inject` decorator and the network. The facts it fetches are parameters. This covers the branch record, the default branch, the commit listings, the open pull requests, the comments and the collaborator listings. The collaborators returned for a permission level are taken as given.
- Pagination and completeness of the listings are not modelled. A listing is the full sequence.
- `blueprint.py`, `app.py`, `log.py`, `exceptions.py`, the charm and the database migrations are not part of this model. These are HTTP routes, authentication, logging, deployment and exception declarations.
- Policy.SchemaError: models only the structural rules of the schema, since the schema file is not part of this model. These rules are: an object at the top level, known job types, known properties, and a rule object with a required boolean `enabled`. It does not model which error jsonschema reports first, its exact message text, or whether extra keys inside a rule object are rejected.
- Policy.InvalidReason: the exception's repr is modelled as `ValidationError('<message>')`. jsonschema's actual repr of a validation error is not modelled.
- Strings.Repr: models Python's `repr` of a string as the text between single quotes. It does not escape quotes, backslashes or control characters, and it does not switch to double quotes.
- Comment.Lines: splits on "\n" only, as `str.splitlines` does for text without "\r", "\x0b", "\x0c", "\x1c"-"\x1e", "\x85" or Unicode line separators. Comment.TrimStart treats only space and tab as blank, which is narrower than `str.strip`.
- `policy.enabled` follows the code: an absent job type or property means disabled.
- Quote stripping is not idempotent in general. A body ending in blank lines loses one more newline each time it is stripped (Comment.NotIdempotentOnTrailingBlankLines). Idempotence is proved only for results that do not end in a newline (Comment.IdempotentWithoutTrailingNewline).
- Compliance.All: `__init__.py` gates each check on a top-level key named after a `policy.Property` member. That member is absent from the `policy.py` modelled here. The model gates on a flat document keyed by the pull request property names. By default this is a document that enables all four checks. A custom document is still validated against the nested job-type schema of `policy.py`. So a custom document that passes validation enables no check (Compliance.ValidCustomDocumentGatesNothing).
- Compliance.All: the `target_branch_protection` it runs is the corrected one (see Findings). The Python raises instead on a protected target branch without required reviews.
- Compliance.Gate: on a document whose gated value is not an object with a boolean `enabled`, Python would raise a lookup error or use truthiness. The model reads such a value as disabled. Neither the default document nor a validated custom document has such a value.
- Python's lazy evaluation in `all_` is not modelled: Compliance.Evaluate computes the report of every check up front. Every check is a total function, so computing a report that is not used changes nothing.
- Failure paths that come from the host client are not modelled: an error raised by the client, a missing branch, or a missing `verification` entry.
- APIs that appear only in tests are not part of this model: `Result.ERROR`, `JobMetadata`, `pull_request_disallow_fork`, `_check_fork_collaborator`, `ScheduleInput` and `get_collaborator_permission`.
- The token store is a single process-wide set in `database.py`. The model makes it an object, and a caller passes that object explicitly. Concurrent access is not modelled.

## Findings

| source | as written | input that shows it | evidently intended | confidence | as-written member | corrected member |
|---|---|---|---|---|---|---|
| repo_policy_compliance/__init__.py:208-211 | reads `require_code_owner_reviews` from `required_pull_request_reviews` with no check that reviews are required; when they are not, that value is `None` and the attribute access raises | a protected branch that requires signed commits but no pull request reviews | fail with "pull request reviews are not required", as `check.py` does at lines 111-116 | medium, not executed | Compliance.TargetBranchProtectionRaisesWithoutReviews | Compliance.TargetBranchProtection |

=== FILE: check.dfy ===
/**
 * The individual checks of check.py: branch protection, review protection of
 * a pull request's target branch, the outside-collaborator audit, and the
 * fork execution authorization. Every failure reason starts with the common
 * failure banner.
 */
module Check {
  import opened Strings
  import opened Reports
  import opened Provider
  import Comment

  const FailureMessage :=
    "\nThis job has failed to pass a repository policy compliance check as defined in the "
    + "https://github.com/canonical/repo-policy-compliance repository. "
    + "The specific failure is listed below. Please update the settings on this project to "
    + "fix the relevant policy.\n"

  const AuthorizationStringPrefix := "/canonical/self-hosted-runners/run-workflows"

  const ExecuteJobMessage :=
    "execution not authorized, a comment from a user with write permission or above on the "
    + "repository approving the workflow was not found on a PR from a fork, the comment should "
    + "include the string '" + AuthorizationStringPrefix + " <commit SHA>' where the commit SHA "
    + "is the SHA of the latest commit on the branch"

  /** A failure whose reason is `prefix`, then `item`, then `suffix`; the reason names `item`. */
  function Naming(prefix: string, item: string, suffix: string): (r: Report)
    requires prefix != []
    ensures r.Valid() && r.result == Fail && Contains(r.reason.value, item)
    ensures StartsWith(r.reason.value, prefix)
  {
    ContainsMiddle(prefix, item, suffix);
    StartsWithConcat(prefix, item + suffix);
    assert prefix + (item + suffix) == prefix + item + suffix;
    Failure(prefix + item + suffix)
  }

  // ----- Branch protection ------------------------------------------------

  /** `branch_protected`: fails exactly when the branch is not protected, naming the branch. */
  function BranchProtected(branch: Branch): (r: Report)
    ensures r.Valid()
    ensures r.result == Fail <==> !branch.protected
    ensures r.result == Fail ==>
              Contains(r.reason.value, branch.name)
              && StartsWith(r.reason.value, FailureMessage + "branch protection not enabled, branch.name='")
  {
    if !branch.protected then
      Naming(FailureMessage + "branch protection not enabled, branch.name='", branch.name, "'")
    else Passed
  }

  // ----- Target branch protection -----------------------------------------

  /** Any bypass allowance (users, teams or apps) is present. */
  predicate CanBeBypassed(reviews: ReviewRequirement) {
    reviews.bypassUsers != [] || reviews.bypassTeams != [] || reviews.bypassApps != []
  }

  /** Reviews are required, stale reviews are dismissed and nobody can bypass them. */
  predicate ReviewsEnforced(reviews: Option<ReviewRequirement>) {
    reviews.Some? && reviews.value.dismissStaleReviews && !CanBeBypassed(reviews.value)
  }

  /** Review requirements matter when the target is the default branch or the source is a fork. */
  predicate ReviewsApply(repositoryName: string, branchName: string, sourceRepositoryName: string,
                         defaultBranch: string)
  {
    branchName == defaultBranch || repositoryName != sourceRepositoryName
  }

  /**
   * The review checks of `target_branch_protection`, in order: reviews are
   * required, stale reviews are dismissed, and nobody can bypass them.
   */
  function ReviewsReport(branchName: string, reviews: Option<ReviewRequirement>): (r: Report)
    ensures r.Valid()
    ensures r.result == Pass <==> ReviewsEnforced(reviews)
    ensures r.result == Fail ==> Contains(r.reason.value, branchName)
  {
    match reviews
    case None =>
      Naming(FailureMessage + "pull request reviews are not required, branch_name='", branchName, "'")
    case Some(requirement) =>
      if !requirement.dismissStaleReviews then
        Naming(FailureMessage + "stale reviews are not dismissed, branch_name='", branchName, "'")
      else if CanBeBypassed(requirement) then
        Naming(FailureMessage + "pull request reviews can be bypassed, branch_name='", branchName, "'")
      else Passed
  }

  /**
   * `target_branch_protection`: the branch must be protected and, when the
   * review requirements apply, must enforce reviews. `branch` is the branch
   * record fetched for `branchName` and `defaultBranch` the repository's
   * default branch.
   */
  function TargetBranchProtection(repositoryName: string, branchName: string,
                                  sourceRepositoryName: string, branch: Branch,
                                  defaultBranch: string): (r: Report)
    ensures r.Valid()
    ensures r.result == Pass <==>
              branch.protected
              && (ReviewsApply(repositoryName, branchName, sourceRepositoryName, defaultBranch)
                  ==> ReviewsEnforced(branch.reviews))
    ensures r.result == Fail ==>
              Contains(r.reason.value, if branch.protected then branchName else branch.name)
  {
    var protectedReport := BranchProtected(branch);
    if protectedReport.result == Fail then protectedReport
    else if ReviewsApply(repositoryName, branchName, sourceRepositoryName, defaultBranch) then
      ReviewsReport(branchName, branch.reviews)
    else Passed
  }

  /**
   * Protection is checked first; the review checks run only on a protected
   * branch to which they apply.
   */
  lemma TargetBranchProtectionOrder(repositoryName: string, branchName: string,
                                    sourceRepositoryName: string, branch: Branch,
                                    defaultBranch: string)
    ensures var r := TargetBranchProtection(repositoryName, branchName, sourceRepositoryName,
                                            branch, defaultBranch);
            var applies := ReviewsApply(repositoryName, branchName, sourceRepositoryName, defaultBranch);
            && (!branch.protected ==> r == BranchProtected(branch))
            && (branch.protected && applies ==> r == ReviewsReport(branchName, branch.reviews))
            && (branch.protected && !applies ==> r == Passed)
  {
  }

  /** Without required reviews the review checks fail on that first. */
  lemma ReviewsNotRequiredReason(branchName: string)
    ensures StartsWith(ReviewsReport(branchName, None).reason.value,
                       FailureMessage + "pull request reviews are not required, branch_name='")
  {
  }

  /** With required reviews, stale reviews that are not dismissed fail next, whatever the bypass allowances. */
  lemma StaleReviewsReason(branchName: string, reviews: ReviewRequirement)
    requires !reviews.dismissStaleReviews
    ensures StartsWith(ReviewsReport(branchName, Some(reviews)).reason.value,
                       FailureMessage + "stale reviews are not dismissed, branch_name='")
  {
  }

  /** Bypass allowances fail last, once stale reviews are dismissed. */
  lemma BypassReason(branchName: string, reviews: ReviewRequirement)
    requires reviews.dismissStaleReviews && CanBeBypassed(reviews)
    ensures StartsWith(ReviewsReport(branchName, Some(reviews)).reason.value,
                       FailureMessage + "pull request reviews can be bypassed, branch_name='")
  {
  }

  /** A protected target that is not the default branch, with a same-repository source, passes whatever its reviews. */
  lemma InternalFeatureTargetPasses(repositoryName: string, branchName: string, branch: Branch,
                                    defaultBranch: string)
    requires branch.protected && branchName != defaultBranch
    ensures TargetBranchProtection(repositoryName, branchName, repositoryName, branch, defaultBranch)
            == Passed
  {
  }

  // ----- Collaborators ----------------------------------------------------

  /** The logins of the collaborators whose role is anything but "read", in listing order. */
  function HigherPermissionLogins(collaborators: seq<Collaborator>): (logins: seq<string>)
    ensures |logins| <= |collaborators|
    ensures forall i :: 0 <= i < |collaborators| && collaborators[i].roleName != "read" ==>
              collaborators[i].login in logins
  {
    if collaborators == [] then []
    else
      var c := collaborators[0];
      (if c.roleName != "read" then [c.login] else []) + HigherPermissionLogins(collaborators[1..])
  }

  /** A login is listed exactly when some collaborator with that login has a role other than "read". */
  lemma {:induction false} HigherPermissionLoginsMembers(collaborators: seq<Collaborator>)
    ensures forall l :: l in HigherPermissionLogins(collaborators) <==>
              exists c :: c in collaborators && c.roleName != "read" && c.login == l
  {
    if collaborators != [] {
      HigherPermissionLoginsMembers(collaborators[1..]);
      var c0 := collaborators[0];
      assert collaborators == [c0] + collaborators[1..];
      forall l
        ensures l in HigherPermissionLogins(collaborators) <==>
                exists c :: c in collaborators && c.roleName != "read" && c.login == l
      {
        if exists c :: c in collaborators && c.roleName != "read" && c.login == l {
          var c :| c in collaborators && c.roleName != "read" && c.login == l;
          if c != c0 {
            assert c in collaborators[1..];
          }
        }
      }
    }
  }

  /** The filter keeps listing order: it distributes over concatenation. */
  lemma {:induction false} HigherPermissionLoginsAppend(a: seq<Collaborator>, b: seq<Collaborator>)
    ensures HigherPermissionLogins(a + b) == HigherPermissionLogins(a) + HigherPermissionLogins(b)
  {
    if a == [] {
      assert a + b == b;
    } else {
      var head := if a[0].roleName != "read" then [a[0].login] else [];
      assert (a + b)[0] == a[0] && (a + b)[1..] == a[1..] + b;
      assert HigherPermissionLogins(a + b) == head + HigherPermissionLogins(a[1..] + b);
      HigherPermissionLoginsAppend(a[1..], b);
      assert HigherPermissionLogins(a) == head + HigherPermissionLogins(a[1..]);
    }
  }

  /** The reason a collaborators audit fails with, given the offending logins, before any banner. */
  function CollaboratorsReason(logins: seq<string>): (reason: string)
    ensures forall k :: 0 <= k < |logins| ==> Contains(reason, logins[k])
    ensures reason != []
  {
    var prefix := "the repository includes outside collaborators with higher permissions "
                  + "than read,higher_permission_logins=";
    var rendered := ReprTuple(logins);
    forall k | 0 <= k < |logins| ensures Contains(prefix + rendered, logins[k]) {
      ContainsExtend(prefix, rendered, "", logins[k]);
      assert prefix + rendered + "" == prefix + rendered;
    }
    prefix + rendered
  }

  /** A banner put in front of a text keeps every login the text names. */
  lemma BannerKeepsLogins(banner: string, text: string, logins: seq<string>)
    requires forall k :: 0 <= k < |logins| ==> Contains(text, logins[k])
    ensures forall k :: 0 <= k < |logins| ==> Contains(banner + text, logins[k])
  {
    forall k | 0 <= k < |logins| ensures Contains(banner + text, logins[k]) {
      ContainsExtend(banner, text, "", logins[k]);
      assert banner + text + "" == banner + text;
    }
  }

  /**
   * `collaborators`, given the outside collaborators with triage permission
   * or above: fails exactly when one of them holds a role other than "read",
   * and the reason names every such login.
   */
  function Collaborators(outsideCollaborators: seq<Collaborator>): (r: Report)
    ensures r.Valid()
    ensures r.result == Fail <==> exists c :: c in outsideCollaborators && c.roleName != "read"
    ensures r.result == Fail ==>
              forall c :: c in outsideCollaborators && c.roleName != "read" ==>
                Contains(r.reason.value, c.login)
    ensures r.result == Fail ==>
              r.reason.value == FailureMessage + CollaboratorsReason(HigherPermissionLogins(outsideCollaborators))
  {
    var logins := HigherPermissionLogins(outsideCollaborators);
    if logins != [] then
      var text := CollaboratorsReason(logins);
      BannerKeepsLogins(FailureMessage, text, logins);
      var reason := FailureMessage + text;
      OffendingLoginsNamed(outsideCollaborators, logins, reason);
      Failure(reason)
    else
      HigherPermissionLoginsMembers(outsideCollaborators);
      assert forall c :: c in outsideCollaborators && c.roleName != "read" ==> c.login in logins;
      Passed
  }

  lemma OffendingLoginsNamed(outsideCollaborators: seq<Collaborator>, logins: seq<string>, reason: string)
    requires logins == HigherPermissionLogins(outsideCollaborators) && logins != []
    requires forall k :: 0 <= k < |logins| ==> Contains(reason, logins[k])
    ensures exists c :: c in outsideCollaborators && c.roleName != "read"
    ensures forall c :: c in outsideCollaborators && c.roleName != "read" ==> Contains(reason, c.login)
  {
    HigherPermissionLoginsMembers(outsideCollaborators);
    assert logins[0] in logins;
    forall c | c in outsideCollaborators && c.roleName != "read" ensures Contains(reason, c.login) {
      assert c.login in logins;
      var k :| 0 <= k < |logins| && logins[k] == c.login;
    }
  }

  // ----- Fork execution authorization -------------------------------------

  /** Python's `name.split("/")[0]`: the text before the first '/'. */
  function Owner(repositoryName: string): (owner: string)
    ensures |owner| <= |repositoryName| && owner == repositoryName[..|owner|]
    ensures '/' !in owner
    ensures |owner| < |repositoryName| ==> repositoryName[|owner|] == '/'
  {
    if repositoryName == [] || repositoryName[0] == '/' then ""
    else [repositoryName[0]] + Owner(repositoryName[1..])
  }

  /**
   * `_branch_external_fork`: the source repository differs and its owner
   * has no push permission on the repository.
   */
  function BranchExternalFork(repositoryName: string, sourceRepositoryName: string,
                              pushLogins: set<string>): (external: bool)
    ensures external <==> repositoryName != sourceRepositoryName && Owner(sourceRepositoryName) !in pushLogins
    ensures forall login :: login in pushLogins && '/' !in login && StartsWith(sourceRepositoryName, login + "/")
              ==> !external
  {
    assert forall login :: '/' !in login && StartsWith(sourceRepositoryName, login + "/")
             ==> Owner(sourceRepositoryName) == login by {
      forall login | '/' !in login && StartsWith(sourceRepositoryName, login + "/")
        ensures Owner(sourceRepositoryName) == login
      {
        OwnerOf(login, sourceRepositoryName[|login| + 1..]);
        assert sourceRepositoryName == login + "/" + sourceRepositoryName[|login| + 1..];
      }
    }
    if repositoryName == sourceRepositoryName then false
    else if Owner(sourceRepositoryName) in pushLogins then false
    else true
  }

  /** The owner of "owner/name" is "owner", so a fork owned by a pusher is not external. */
  lemma ForkOfPusherIsNotExternal(repositoryName: string, owner: string, name: string,
                                  pushLogins: set<string>)
    requires '/' !in owner && owner in pushLogins
    ensures Owner(owner + "/" + name) == owner
    ensures !BranchExternalFork(repositoryName, owner + "/" + name, pushLogins)
  {
    OwnerOf(owner, name);
  }

  lemma {:induction false} OwnerOf(owner: string, name: string)
    requires '/' !in owner
    ensures Owner(owner + "/" + name) == owner
  {
    if owner != [] {
      assert owner[0] in owner;
      assert (owner + "/" + name)[1..] == owner[1..] + "/" + name;
      assert forall c :: c in owner[1..] ==> c in owner;
      OwnerOf(owner[1..], name);
    }
  }

  /** `f"{AUTHORIZATION_STRING_PREFIX} {commit_sha}"`. */
  function AuthorizationString(commitSha: string): string {
    AuthorizationStringPrefix + " " + commitSha
  }

  /** The first open pull request whose head ref is the branch. */
  function FindPull(pulls: seq<PullRequest>, branchName: string): (found: Option<PullRequest>)
    ensures found.None? <==> forall p :: p in pulls ==> p.headRef != branchName
    ensures found.Some? ==>
              exists i :: 0 <= i < |pulls| && pulls[i] == found.value
                          && pulls[i].headRef == branchName
                          && forall j :: 0 <= j < i ==> pulls[j].headRef != branchName
  {
    if pulls == [] then None
    else if pulls[0].headRef == branchName then Some(pulls[0])
    else
      var found := FindPull(pulls[1..], branchName);
      if found.Some? then
        ghost var i :| 0 <= i < |pulls[1..]| && pulls[1..][i] == found.value
                       && pulls[1..][i].headRef == branchName
                       && forall j :: 0 <= j < i ==> pulls[1..][j].headRef != branchName;
        assert pulls[i + 1] == found.value;
        found
      else found
  }

  /** The marker is in the comment once its quoted lines are removed. */
  predicate CarriesMarker(comment: IssueComment, marker: string) {
    Contains(Comment.RemoveQuoteLines(comment.body), marker)
  }

  /** The comments that carry the marker outside quoted lines, in order. */
  function AuthorizationComments(comments: seq<IssueComment>, marker: string): (found: seq<IssueComment>)
    ensures forall c :: c in found <==> c in comments && CarriesMarker(c, marker)
    ensures found == [] <==> forall c :: c in comments ==> !CarriesMarker(c, marker)
  {
    if comments == [] then []
    else
      (if CarriesMarker(comments[0], marker) then [comments[0]] else [])
      + AuthorizationComments(comments[1..], marker)
  }

  /** A comment approves the run: it carries the marker and its author may push. */
  predicate Approves(comment: IssueComment, commitSha: string, pushLogins: set<string>): (approves: bool)
    ensures approves ==> comment.author in pushLogins
    ensures '\n' !in commitSha ==>
              (approves <==> comment.author in pushLogins
                             && exists l :: l in Comment.Lines(comment.body) && !Comment.IsQuoted(l)
                                            && Contains(l, AuthorizationString(commitSha)))
  {
    var marker := AuthorizationString(commitSha);
    assert '\n' !in commitSha ==>
             (CarriesMarker(comment, marker) <==>
                exists l :: l in Comment.Lines(comment.body) && !Comment.IsQuoted(l) && Contains(l, marker)) by {
      if '\n' !in commitSha {
        assert '\n' !in AuthorizationStringPrefix;
        assert '\n' !in AuthorizationStringPrefix + " ";
        Comment.FoundIffInUnquotedLine(comment.body, marker);
      }
    }
    CarriesMarker(comment, marker) && comment.author in pushLogins
  }

  /** The reason suffix shared by the comment-based failures. */
  function PullContext(branchName: string, commitSha: string, separator: string, number: nat): string {
    "branch_name=" + Repr(branchName) + ", commit_sha=" + Repr(commitSha) + separator
    + "pull_for_branch.number=" + NatToString(number)
  }

  /**
   * The fork path of `execute_job`, shared by both of its variants, which
   * differ in the banner, the explanation, the text for an unauthorized
   * author and who may authorize: the first open pull request for the branch
   * must carry a comment, outside quoted lines, with the authorization string
   * for the commit, from an authorized user.
   */
  function ForkAuthorization(banner: string, message: string, unauthorized: string, branchName: string,
                             commitSha: string, authorizedLogins: set<string>,
                             openPulls: seq<PullRequest>): (r: Report)
    requires unauthorized != []
    ensures r.Valid()
    ensures r.result == Pass <==>
              FindPull(openPulls, branchName).Some?
              && exists c :: c in FindPull(openPulls, branchName).value.comments
                             && Approves(c, commitSha, authorizedLogins)
  {
    match FindPull(openPulls, branchName)
    case None => Naming(banner + "no open pull requests for branch ", branchName, "")
    case Some(pull) =>
      if |pull.comments| == 0 then
        Failure(banner + "no comment found on PR - " + message + ", "
                + PullContext(branchName, commitSha, " ", pull.number))
      else
        var authorizationString := AuthorizationString(commitSha);
        var authorizationComments := AuthorizationComments(pull.comments, authorizationString);
        if authorizationComments == [] then
          Naming(banner + "authorization comment not found on PR, expected: ", authorizationString,
                 " - " + message + ", " + PullContext(branchName, commitSha, ", ", pull.number))
        else if !exists c :: c in authorizationComments && c.author in authorizedLogins then
          Failure(banner + unauthorized + message + ", " + PullContext(branchName, commitSha, ", ", pull.number))
        else Passed
  }

  /**
   * `execute_job`, given the collaborators with push permission and the open
   * pull requests: an internal branch, or a fork owned by a pusher, passes;
   * otherwise the first open pull request for the branch must carry a comment,
   * outside quoted lines, with the authorization string for the commit, from
   * a user with push permission.
   */
  function ExecuteJob(repositoryName: string, sourceRepositoryName: string, branchName: string,
                      commitSha: string, pushCollaborators: seq<Collaborator>,
                      openPulls: seq<PullRequest>): (r: Report)
    ensures r.Valid()
    ensures r.result == Pass <==>
              || !BranchExternalFork(repositoryName, sourceRepositoryName, Logins(pushCollaborators))
              || (FindPull(openPulls, branchName).Some?
                  && exists c :: c in FindPull(openPulls, branchName).value.comments
                                 && Approves(c, commitSha, Logins(pushCollaborators)))
  {
    var pushLogins := Logins(pushCollaborators);
    if !BranchExternalFork(repositoryName, sourceRepositoryName, pushLogins) then Passed
    else
      ForkAuthorization(FailureMessage, ExecuteJobMessage,
                        "authorization comment from a user who does not have write permission or above - ",
                        branchName, commitSha, pushLogins, openPulls)
  }

  /** On the fork path, no open pull request for the branch fails, naming the branch. */
  lemma ForkWithoutPullFails(banner: string, message: string, unauthorized: string, branchName: string,
                             commitSha: string, authorizedLogins: set<string>,
                             openPulls: seq<PullRequest>)
    requires unauthorized != []
    requires forall p :: p in openPulls ==> p.headRef != branchName
    ensures var r := ForkAuthorization(banner, message, unauthorized, branchName, commitSha,
                                       authorizedLogins, openPulls);
            r.result == Fail && Contains(r.reason.value, branchName)
  {
  }

  /**
   * On the fork path, a pull request whose comments all lack the
   * authorization string fails, and the reason echoes the expected string.
   */
  lemma ForkWithoutMarkerFails(banner: string, message: string, unauthorized: string, branchName: string,
                               commitSha: string, authorizedLogins: set<string>, pull: PullRequest,
                               openPulls: seq<PullRequest>)
    requires unauthorized != []
    requires FindPull(openPulls, branchName) == Some(pull) && pull.comments != []
    requires forall c :: c in pull.comments ==> !CarriesMarker(c, AuthorizationString(commitSha))
    ensures var r := ForkAuthorization(banner, message, unauthorized, branchName, commitSha,
                                       authorizedLogins, openPulls);
            r.result == Fail && Contains(r.reason.value, AuthorizationString(commitSha))
  {
  }

  /**
   * On the fork path, a pull request whose authorization comments all come
   * from users without the required permission fails with the unauthorized
   * message after the banner.
   */
  lemma ForkUnauthorizedCommentFails(banner: string, message: string, unauthorized: string, branchName: string,
                                     commitSha: string, authorizedLogins: set<string>, pull: PullRequest,
                                     openPulls: seq<PullRequest>)
    requires unauthorized != []
    requires FindPull(openPulls, branchName) == Some(pull)
    requires exists c :: c in pull.comments && CarriesMarker(c, AuthorizationString(commitSha))
    requires forall c :: c in pull.comments && CarriesMarker(c, AuthorizationString(commitSha))
               ==> c.author !in authorizedLogins
    ensures var r := ForkAuthorization(banner, message, unauthorized, branchName, commitSha,
                                       authorizedLogins, openPulls);
            r.result == Fail && StartsWith(r.reason.value, banner + unauthorized)
            && Contains(r.reason.value, unauthorized)
  {
    UnauthorizedReport(banner, message, unauthorized, branchName, commitSha, authorizedLogins, pull, openPulls);
    ReasonLeadsWith(banner, unauthorized, message, PullContext(branchName, commitSha, ", ", pull.number));
  }

  /** A reason built as banner, explanation, message and context starts with the first two. */
  lemma ReasonLeadsWith(banner: string, unauthorized: string, message: string, context: string)
    ensures StartsWith(banner + unauthorized + message + ", " + context, banner + unauthorized)
    ensures Contains(banner + unauthorized + message + ", " + context, unauthorized)
  {
    var head := banner + unauthorized;
    var rest := message + ", " + context;
    assert head + message + ", " == head + (message + ", ");
    assert head + (message + ", ") + context == head + rest;
    StartsWithConcat(head, rest);
    ContainsMiddle(banner, unauthorized, rest);
  }

  /** The report of the unauthorized case, as the fork path builds it. */
  lemma UnauthorizedReport(banner: string, message: string, unauthorized: string, branchName: string,
                           commitSha: string, authorizedLogins: set<string>, pull: PullRequest,
                           openPulls: seq<PullRequest>)
    requires unauthorized != []
    requires FindPull(openPulls, branchName) == Some(pull)
    requires exists c :: c in pull.comments && CarriesMarker(c, AuthorizationString(commitSha))
    requires forall c :: c in pull.comments && CarriesMarker(c, AuthorizationString(commitSha))
               ==> c.author !in authorizedLogins
    ensures ForkAuthorization(banner, message, unauthorized, branchName, commitSha, authorizedLogins, openPulls)
            == Failure(banner + unauthorized + message + ", "
                       + PullContext(branchName, commitSha, ", ", pull.number))
  {
    var marker := AuthorizationString(commitSha);
    var c :| c in pull.comments && CarriesMarker(c, marker);
    assert c in AuthorizationComments(pull.comments, marker);
  }

  /**
   * Quoting an approval does not authorize: when every line that carries the
   * authorization string is quoted in every comment, the fork path fails,
   * whoever wrote the comments.
   */
  lemma QuotedApprovalNeverCounts(banner: string, message: string, unauthorized: string,
                                  branchName: string, commitSha: string,
                                  authorizedLogins: set<string>, openPulls: seq<PullRequest>)
    requires unauthorized != []
    requires '\n' !in commitSha
    requires forall p, c, l ::
               (p in openPulls && c in p.comments && l in Comment.Lines(c.body)
                && Contains(l, AuthorizationString(commitSha))) ==> Comment.IsQuoted(l)
    ensures ForkAuthorization(banner, message, unauthorized, branchName, commitSha,
                              authorizedLogins, openPulls).result == Fail
  {
    var marker := AuthorizationString(commitSha);
    assert '\n' !in AuthorizationStringPrefix;
    assert '\n' !in AuthorizationStringPrefix + " ";
    assert marker == (AuthorizationStringPrefix + " ") + commitSha;
    var found := FindPull(openPulls, branchName);
    if found.Some? {
      forall c | c in found.value.comments ensures !CarriesMarker(c, marker) {
        Comment.FoundIffInUnquotedLine(c.body, marker);
      }
    }
  }
}

=== FILE: comment.dfy ===
/**
 * Quote stripping of pull-request comments: every line whose first
 * non-whitespace character is `>` is dropped and the remaining lines are
 * joined with "\n". The fork authorization check searches the stripped body,
 * so an approval that only appears inside a quote never counts.
 *
 * Lines are split on '\n' the way Python's `str.splitlines` splits them (a
 * final newline does not start another line); whitespace is space and tab.
 */
module Comment {
  import opened Strings

  predicate IsWhitespace(c: char) {
    c == ' ' || c == '\t'
  }

  /** The line without its leading whitespace. */
  function TrimStart(line: string): (t: string)
    ensures |t| <= |line| && t == line[|line| - |t|..]
    ensures t == [] || !IsWhitespace(t[0])
    ensures forall k :: 0 <= k < |line| - |t| ==> IsWhitespace(line[k])
  {
    if line != [] && IsWhitespace(line[0]) then TrimStart(line[1..]) else line
  }

  /** `line.strip().startswith(">")`: the first character that is not blank is '>'. */
  predicate IsQuoted(line: string): (quoted: bool)
    ensures quoted <==> exists k :: 0 <= k < |line| && line[k] == '>' && Blank(line[..k])
  {
    var t := TrimStart(line);
    var n := |line| - |t|;
    assert forall k :: 0 <= k < |line| && line[k] == '>' && Blank(line[..k]) ==> k == n by {
      forall k | 0 <= k < |line| && line[k] == '>' && Blank(line[..k]) ensures k == n {
        FirstNonBlank(line, k);
      }
    }
    assert t != [] ==> line[n] == t[0] && Blank(line[..n]);
    t != [] && t[0] == '>'
  }

  /** Every character of `s` is blank. */
  predicate Blank(s: string) {
    forall k :: 0 <= k < |s| ==> IsWhitespace(s[k])
  }

  /** The first character that is not blank is where `TrimStart` stops. */
  lemma {:induction false} FirstNonBlank(line: string, k: nat)
    requires k < |line| && !IsWhitespace(line[k]) && Blank(line[..k])
    ensures k == |line| - |TrimStart(line)|
  {
    if k > 0 {
      assert IsWhitespace(line[..k][0]);
      assert line[1..][..k - 1] == line[..k][1..];
      FirstNonBlank(line[1..], k - 1);
    }
  }

  /** Index of the first '\n' in `s`, or `|s|` when there is none. */
  function FirstNewline(s: string): (i: nat)
    ensures i <= |s|
    ensures i < |s| ==> s[i] == '\n'
  {
    if s == [] || s[0] == '\n' then 0 else 1 + FirstNewline(s[1..])
  }

  /** No newline comes before the first one. */
  lemma {:induction false} NoNewlineBeforeFirst(s: string)
    ensures forall k :: 0 <= k < FirstNewline(s) ==> s[k] != '\n'
  {
    if s != [] && s[0] != '\n' {
      NoNewlineBeforeFirst(s[1..]);
      assert forall k :: 1 <= k < FirstNewline(s) ==> s[k] == s[1..][k - 1];
    }
  }

  /** `s.splitlines()` for '\n' separators. */
  function Lines(s: string): (ls: seq<string>)
    ensures s == [] <==> ls == []
    decreases |s|
  {
    if s == [] then []
    else
      var i := FirstNewline(s);
      if i == |s| then [s] else [s[..i]] + Lines(s[i + 1..])
  }

  /** No line produced by `Lines` contains a newline. */
  lemma {:induction false} LinesHaveNoNewline(s: string)
    ensures forall k :: 0 <= k < |Lines(s)| ==> '\n' !in Lines(s)[k]
    decreases |s|
  {
    if s != [] {
      var i := FirstNewline(s);
      NoNewlineBeforeFirst(s);
      assert forall c :: c in s[..i] ==> c != '\n';
      if i < |s| {
        LinesHaveNoNewline(s[i + 1..]);
      }
    }
  }

  /** `"\n".join(ls)`. */
  function Join(ls: seq<string>): string
  {
    if ls == [] then ""
    else if |ls| == 1 then ls[0]
    else ls[0] + "\n" + Join(ls[1..])
  }

  /** The lines that are not quoted, in their original order. */
  function Unquoted(ls: seq<string>): (r: seq<string>)
    ensures |r| <= |ls|
    ensures forall l :: l in r <==> l in ls && !IsQuoted(l)
  {
    if ls == [] then []
    else (if IsQuoted(ls[0]) then [] else [ls[0]]) + Unquoted(ls[1..])
  }

  /** The filter keeps the order and the multiplicity of the lines: it distributes over concatenation. */
  lemma {:induction false} UnquotedAppend(a: seq<string>, b: seq<string>)
    ensures Unquoted(a + b) == Unquoted(a) + Unquoted(b)
  {
    if a == [] {
      assert a + b == b;
    } else {
      assert (a + b)[0] == a[0] && (a + b)[1..] == a[1..] + b;
      UnquotedAppend(a[1..], b);
    }
  }

  /** `remove_quote_lines(body)`: a body of one line is dropped when quoted and kept otherwise. */
  function RemoveQuoteLines(body: string): (stripped: string)
    ensures '\n' !in body ==> stripped == if IsQuoted(body) then "" else body
  {
    var lines := Lines(body);
    assert '\n' !in body && body != [] ==> lines == [body] by {
      if '\n' !in body && body != [] {
        FirstNewlineNone(body);
      }
    }
    Join(Unquoted(lines))
  }

  /** `s` without its last character when that character is a newline. */
  function WithoutFinalNewline(s: string): string
  {
    if s != [] && s[|s| - 1] == '\n' then s[..|s| - 1] else s
  }

  lemma WithoutFinalNewlineAppend(a: string, b: string)
    requires b != []
    ensures WithoutFinalNewline(a + b) == a + WithoutFinalNewline(b)
  {
    if b[|b| - 1] == '\n' {
      assert (a + b)[..|a + b| - 1] == a + b[..|b| - 1];
    }
  }

  /** All elements but the last one when the last one is the empty line. */
  function DropFinalEmpty(ls: seq<string>): seq<string>
  {
    if ls != [] && ls[|ls| - 1] == [] then ls[..|ls| - 1] else ls
  }

  // ----- Splitting and joining --------------------------------------------

  /** One step of `Lines`: the first line, then the lines after its newline. */
  lemma LinesStep(s: string)
    requires FirstNewline(s) < |s|
    ensures Lines(s) == [s[..FirstNewline(s)]] + Lines(s[FirstNewline(s) + 1..])
  {
  }

  lemma JoinCons(l: string, tail: seq<string>)
    requires tail != []
    ensures Join([l] + tail) == l + "\n" + Join(tail)
  {
    assert ([l] + tail)[1..] == tail;
  }

  /** Joining the lines of `s` gives `s` back, less one final newline. */
  lemma {:induction false} JoinLines(s: string)
    ensures Join(Lines(s)) == WithoutFinalNewline(s)
    decreases |s|
  {
    if s != [] {
      var i := FirstNewline(s);
      if i < |s| {
        LinesStep(s);
        var head, rest := s[..i], s[i + 1..];
        assert s == head + "\n" + rest;
        if rest == [] {
          assert Lines(s) == [head];
          assert WithoutFinalNewline(s) == head;
        } else {
          JoinLines(rest);
          JoinCons(head, Lines(rest));
          WithoutFinalNewlineAppend(head + "\n", rest);
        }
      } else {
        NoNewlineBeforeFirst(s);
        assert s[|s| - 1] != '\n';
        assert s[..i] == s;
        assert Lines(s) == [s];
      }
    }
  }

  lemma FirstNewlineAfter(l: string, rest: string)
    requires '\n' !in l
    ensures FirstNewline(l + "\n" + rest) == |l|
  {
    var s := l + "\n" + rest;
    NoNewlineBeforeFirst(s);
    assert s[|l|] == '\n';
    assert forall k :: 0 <= k < |l| ==> s[k] == l[k] && l[k] in l;
  }

  lemma FirstNewlineNone(l: string)
    requires '\n' !in l
    ensures FirstNewline(l) == |l|
  {
    NoNewlineBeforeFirst(l);
    assert forall k :: 0 <= k < |l| ==> l[k] in l;
  }

  /** Splitting joined lines gives the lines back, less one final empty line. */
  lemma {:induction false} LinesOfJoin(ls: seq<string>)
    requires forall k :: 0 <= k < |ls| ==> '\n' !in ls[k]
    ensures Lines(Join(ls)) == DropFinalEmpty(ls)
  {
    if |ls| == 1 {
      if ls[0] != [] {
        FirstNewlineNone(ls[0]);
        assert ls[0][..|ls[0]|] == ls[0];
      }
    } else if |ls| > 1 {
      LinesOfJoin(ls[1..]);
      LinesOfJoinCons(ls[0], ls[1..]);
      DropFinalEmptyCons(ls);
    }
  }

  /** Splitting a joined list of lines peels off its first line. */
  lemma LinesOfJoinCons(l: string, tail: seq<string>)
    requires '\n' !in l && tail != []
    ensures Lines(Join([l] + tail)) == [l] + Lines(Join(tail))
  {
    JoinCons(l, tail);
    var rest := Join(tail);
    var s := l + "\n" + rest;
    FirstNewlineAfter(l, rest);
    assert s[..|l|] == l;
    assert s[|l| + 1..] == rest;
    LinesStep(s);
  }

  lemma DropFinalEmptyCons(ls: seq<string>)
    requires |ls| > 1
    ensures DropFinalEmpty(ls) == [ls[0]] + DropFinalEmpty(ls[1..])
  {
    assert ls[1..][|ls[1..]| - 1] == ls[|ls| - 1];
    if ls[|ls| - 1] == [] {
      assert ls[1..][..|ls[1..]| - 1] == ls[1..|ls| - 1];
      assert ls[..|ls| - 1] == [ls[0]] + ls[1..|ls| - 1];
    } else {
      assert ls == [ls[0]] + ls[1..];
    }
  }

  lemma {:induction false} UnquotedKeepsNoNewline(ls: seq<string>)
    requires forall k :: 0 <= k < |ls| ==> '\n' !in ls[k]
    ensures forall k :: 0 <= k < |Unquoted(ls)| ==> '\n' !in Unquoted(ls)[k]
  {
    forall k | 0 <= k < |Unquoted(ls)| ensures '\n' !in Unquoted(ls)[k] {
      var l := Unquoted(ls)[k];
      assert l in ls;
    }
  }

  lemma {:induction false} UnquotedOfUnquoted(ls: seq<string>)
    requires forall l :: l in ls ==> !IsQuoted(l)
    ensures Unquoted(ls) == ls
  {
    if ls != [] {
      UnquotedOfUnquoted(ls[1..]);
      assert ls == [ls[0]] + ls[1..];
    }
  }

  // ----- Properties of remove_quote_lines ---------------------------------

  /** The empty comment stays empty. */
  lemma EmptyBody()
    ensures RemoveQuoteLines("") == ""
  {
  }

  /**
   * The lines of the stripped body are exactly the unquoted lines of the
   * input, in their original order (a final blank line is absorbed by the
   * way `splitlines` treats a trailing newline).
   */
  lemma OutputLinesAreUnquotedLines(body: string)
    ensures Lines(RemoveQuoteLines(body)) == DropFinalEmpty(Unquoted(Lines(body)))
  {
    LinesHaveNoNewline(body);
    UnquotedKeepsNoNewline(Lines(body));
    LinesOfJoin(Unquoted(Lines(body)));
  }

  /** No line of the stripped body is quoted. */
  lemma NoQuotedLineSurvives(body: string)
    ensures forall l :: l in Lines(RemoveQuoteLines(body)) ==> !IsQuoted(l)
  {
    OutputLinesAreUnquotedLines(body);
    var u := Unquoted(Lines(body));
    forall l | l in DropFinalEmpty(u) ensures !IsQuoted(l) {
      assert l in u;
    }
  }

  /**
   * A body without quoted lines comes back unchanged, apart from one trailing
   * newline, which `splitlines` drops.
   */
  lemma UnquotedBodyUnchanged(body: string)
    requires forall l :: l in Lines(body) ==> !IsQuoted(l)
    ensures RemoveQuoteLines(body) == WithoutFinalNewline(body)
  {
    UnquotedOfUnquoted(Lines(body));
    JoinLines(body);
  }

  /** A body whose lines are all quoted strips to the empty string. */
  lemma {:induction false} AllQuotedYieldsEmpty(body: string)
    requires forall l :: l in Lines(body) ==> IsQuoted(l)
    ensures RemoveQuoteLines(body) == ""
  {
    var u := Unquoted(Lines(body));
    assert forall k :: 0 <= k < |u| ==> u[k] in u;
  }

  /**
   * Stripping again changes nothing, provided the stripped body does not end
   * in a newline (it can only do so when the input ends in blank lines).
   */
  lemma IdempotentWithoutTrailingNewline(body: string)
    requires var r := RemoveQuoteLines(body); r == [] || r[|r| - 1] != '\n'
    ensures RemoveQuoteLines(RemoveQuoteLines(body)) == RemoveQuoteLines(body)
  {
    NoQuotedLineSurvives(body);
    UnquotedBodyUnchanged(RemoveQuoteLines(body));
  }

  /** A line that is quoted contains the character '>'. */
  lemma QuotedHasMarker(line: string)
    ensures IsQuoted(line) ==> '>' in line
  {
    var t := TrimStart(line);
    if t != [] {
      assert line[|line| - |t|] == t[0];
    }
  }

  /** A character that does not occur in `s` occurs in none of its lines. */
  lemma {:induction false} LinesAvoid(s: string, ch: char)
    requires ch !in s
    ensures forall l :: l in Lines(s) ==> ch !in l
    decreases |s|
  {
    if s != [] {
      var i := FirstNewline(s);
      if i < |s| {
        LinesStep(s);
        assert s == s[..i] + [s[i]] + s[i + 1..];
        LinesAvoid(s[i + 1..], ch);
      }
    }
  }

  /** A body without any '>' character strips to itself, less one final newline. */
  lemma NoMarkerCharacter(body: string)
    requires '>' !in body
    ensures RemoveQuoteLines(body) == WithoutFinalNewline(body)
  {
    LinesAvoid(body, '>');
    forall l | l in Lines(body) ensures !IsQuoted(l) {
      QuotedHasMarker(l);
    }
    UnquotedBodyUnchanged(body);
  }

  /** Stripping twice can remove one more trailing newline than stripping once. */
  lemma NotIdempotentOnTrailingBlankLines()
    ensures RemoveQuoteLines("a\n\n\n") == "a\n\n"
    ensures RemoveQuoteLines(RemoveQuoteLines("a\n\n\n")) == "a\n"
  {
    var once, twice := "a\n\n", "a\n";
    assert "a\n\n\n" == once + "\n";
    assert once == twice + "\n";
    NoMarkerCharacter(once + "\n");
    WithoutAddedNewline(once);
    NoMarkerCharacter(twice + "\n");
    WithoutAddedNewline(twice);
  }

  lemma WithoutAddedNewline(s: string)
    ensures WithoutFinalNewline(s + "\n") == s
  {
    assert (s + "\n")[..|s|] == s;
  }

  // ----- Searching the stripped body --------------------------------------

  lemma {:induction false} JoinContainsLine(ls: seq<string>, k: int)
    requires 0 <= k < |ls|
    ensures Contains(Join(ls), ls[k])
  {
    if |ls| == 1 {
      ContainsMiddle("", ls[0], "");
      assert "" + ls[0] + "" == Join(ls);
    } else if k == 0 {
      ContainsMiddle("", ls[0], "\n" + Join(ls[1..]));
      assert "" + ls[0] + ("\n" + Join(ls[1..])) == Join(ls);
    } else {
      JoinContainsLine(ls[1..], k - 1);
      ContainsExtend(ls[0] + "\n", Join(ls[1..]), "", ls[k]);
      assert ls[0] + "\n" + Join(ls[1..]) + "" == Join(ls);
    }
  }

  /** A text without newlines found in joined lines lies within one of the lines. */
  lemma {:induction false} JoinContainsOnlyWithinLine(ls: seq<string>, m: string)
    requires m != [] && '\n' !in m
    requires Contains(Join(ls), m)
    ensures exists k :: 0 <= k < |ls| && Contains(ls[k], m)
  {
    if ls == [] {
      assert false;
    } else if |ls| == 1 {
      assert Contains(ls[0], m);
    } else {
      var s := Join(ls);
      var l := ls[0];
      var rest := Join(ls[1..]);
      assert s == l + "\n" + rest;
      var i :| 0 <= i <= |s| - |m| && OccursAt(s, m, i);
      assert s[|l|] == '\n';
      if i + |m| <= |l| {
        assert l[i..i + |m|] == s[i..i + |m|];
        ContainsAt(l, m, i);
      } else if i > |l| {
        assert rest[i - |l| - 1..i - |l| - 1 + |m|] == s[i..i + |m|];
        ContainsAt(rest, m, i - |l| - 1);
        JoinContainsOnlyWithinLine(ls[1..], m);
        var k :| 0 <= k < |ls[1..]| && Contains(ls[1..][k], m);
        assert ls[k + 1] == ls[1..][k];
      } else {
        assert false;
      }
    }
  }

  /**
   * A marker (non-empty, without newlines) is found in the stripped body
   * exactly when some unquoted line of the comment contains it; in particular
   * a marker that only appears in quoted lines is never found.
   */
  lemma FoundIffInUnquotedLine(body: string, marker: string)
    requires marker != [] && '\n' !in marker
    ensures Contains(RemoveQuoteLines(body), marker) <==>
            exists l :: l in Lines(body) && !IsQuoted(l) && Contains(l, marker)
  {
    var u := Unquoted(Lines(body));
    if Contains(RemoveQuoteLines(body), marker) {
      JoinContainsOnlyWithinLine(u, marker);
      var k :| 0 <= k < |u| && Contains(u[k], marker);
      assert u[k] in u;
    }
    if exists l :: l in Lines(body) && !IsQuoted(l) && Contains(l, marker) {
      var l :| l in Lines(body) && !IsQuoted(l) && Contains(l, marker);
      assert l in u;
      var k :| 0 <= k < |u| && u[k] == l;
      JoinContainsLine(u, k);
      ContainsTransitive(RemoveQuoteLines(body), l, marker);
    }
  }
}

=== FILE: compliance.dfy ===
/**
 * The package entry points of `__init__.py`: the older variants of the
 * checks (no failure banner, code-owner reviews and signed commits required,
 * maintainers rather than pushers authorize forks) and `all_`, which runs the
 * enabled checks in a fixed order and returns the first failure.
 */
module Compliance {
  import opened Strings
  import opened Reports
  import opened Provider
  import Policy
  import Check

  const ExecuteJobMessage :=
    "execution not authorized, a comment from a maintainer or above on the repository approving "
    + "the workflow was not found on a PR from a fork, the comment should include the string "
    + "'" + Check.AuthorizationStringPrefix + " <commit SHA>' where the commit SHA is the SHA of the "
    + "latest commit on the branch"

  // ----- Branch settings --------------------------------------------------

  /** `_check_branch_protected`: fails exactly when the branch is not protected, naming it. */
  function CheckBranchProtected(branch: Branch): (r: Report)
    ensures r.Valid()
    ensures r.result == Fail <==> !branch.protected
    ensures r.result == Fail ==>
              Contains(r.reason.value, branch.name)
              && StartsWith(r.reason.value, "branch protection not enabled, branch.name='")
  {
    if !branch.protected then Check.Naming("branch protection not enabled, branch.name='", branch.name, "'")
    else Passed
  }

  /** `_check_signed_commits_required`: fails exactly when signatures are not required, naming the branch. */
  function CheckSignedCommitsRequired(branch: Branch): (r: Report)
    ensures r.Valid()
    ensures r.result == Fail <==> !branch.requiredSignatures
    ensures r.result == Fail ==>
              Contains(r.reason.value, branch.name)
              && StartsWith(r.reason.value, "signed commits not required, branch.name='")
  {
    if !branch.requiredSignatures then
      Check.Naming("signed commits not required, branch.name='", branch.name, "'")
    else Passed
  }

  // ----- Target branch protection -----------------------------------------

  /** Code-owner reviews are required, stale reviews are dismissed and nobody can bypass them. */
  predicate CodeOwnerReviewsEnforced(reviews: Option<ReviewRequirement>) {
    && reviews.Some?
    && reviews.value.requireCodeOwnerReviews
    && reviews.value.dismissStaleReviews
    && !Check.CanBeBypassed(reviews.value)
  }

  /** The review and signature checks that follow the protection check, for a branch with reviews. */
  function ReviewChecks(branchName: string, branch: Branch, reviews: ReviewRequirement): (r: Report)
    ensures r.Valid()
    ensures r.result == Pass <==> CodeOwnerReviewsEnforced(Some(reviews)) && branch.requiredSignatures
  {
    if !reviews.requireCodeOwnerReviews then
      Check.Naming("codeowner pull request reviews are not required, branch_name='", branchName, "'")
    else if !reviews.dismissStaleReviews then
      Check.Naming("stale reviews are not dismissed, branch_name='", branchName, "'")
    else if Check.CanBeBypassed(reviews) then
      Check.Naming("pull request reviews can be bypassed, branch_name='", branchName, "'")
    else CheckSignedCommitsRequired(branch)
  }

  /** What a call produces: a report, or an exception that escapes it. */
  datatype Outcome = Returned(report: Report) | Raised(error: string)

  /**
   * `target_branch_protection` as written: on a protected branch it reads the
   * code-owner flag of the review requirement without checking that reviews
   * are required at all, so a protected branch without required reviews
   * raises instead of failing. Otherwise it agrees with `TargetBranchProtection`.
   */
  function TargetBranchProtectionAsWritten(branchName: string, branch: Branch): (o: Outcome)
    ensures o.Raised? <==> branch.protected && branch.reviews.None?
    ensures o.Returned? ==> o.report == TargetBranchProtection(branchName, branch)
  {
    var protectedReport := CheckBranchProtected(branch);
    if protectedReport.result == Fail then Returned(protectedReport)
    else
      match branch.reviews
      case None => Raised("AttributeError: 'NoneType' object has no attribute 'require_code_owner_reviews'")
      case Some(reviews) => Returned(ReviewChecks(branchName, branch, reviews))
  }

  /** A protected branch that requires signatures but no reviews makes the code as written raise. */
  lemma TargetBranchProtectionRaisesWithoutReviews()
    ensures TargetBranchProtectionAsWritten("main", Branch("main", true, true, None)).Raised?
    ensures TargetBranchProtection("main", Branch("main", true, true, None)).result == Fail
  {
  }

  /**
   * `target_branch_protection`, corrected to fail when pull request reviews
   * are not required: it passes exactly when the branch is protected, enforces
   * code-owner reviews without stale reviews or bypass allowances, and
   * requires signed commits.
   */
  function TargetBranchProtection(branchName: string, branch: Branch): (r: Report)
    ensures r.Valid()
    ensures r.result == Pass <==>
              branch.protected && CodeOwnerReviewsEnforced(branch.reviews) && branch.requiredSignatures
  {
    var protectedReport := CheckBranchProtected(branch);
    if protectedReport.result == Fail then protectedReport
    else
      match branch.reviews
      case None =>
        Check.Naming("pull request reviews are not required, branch_name='", branchName, "'")
      case Some(reviews) => ReviewChecks(branchName, branch, reviews)
  }

  /**
   * Protection is checked first, then whether reviews are required; the
   * remaining checks are those of `ReviewChecks`. Every reason names the branch.
   */
  lemma TargetBranchProtectionOrder(branchName: string, branch: Branch)
    ensures var r := TargetBranchProtection(branchName, branch);
            && (!branch.protected ==>
                  r == CheckBranchProtected(branch) && Contains(r.reason.value, branch.name))
            && (branch.protected && branch.reviews.None? ==>
                  StartsWith(r.reason.value, "pull request reviews are not required, branch_name='")
                  && Contains(r.reason.value, branchName))
            && (branch.protected && branch.reviews.Some? ==>
                  r == ReviewChecks(branchName, branch, branch.reviews.value))
  {
  }

  /**
   * After protection the checks run in a fixed order (code-owner reviews,
   * stale reviews, bypass allowances, signed commits) and the first failing
   * one gives the reason, which names the branch.
   */
  lemma ReviewChecksOrder(branchName: string, branch: Branch, reviews: ReviewRequirement)
    ensures var r := ReviewChecks(branchName, branch, reviews);
            && (!reviews.requireCodeOwnerReviews ==>
                  StartsWith(r.reason.value, "codeowner pull request reviews are not required, branch_name='")
                  && Contains(r.reason.value, branchName))
            && (reviews.requireCodeOwnerReviews && !reviews.dismissStaleReviews ==>
                  StartsWith(r.reason.value, "stale reviews are not dismissed, branch_name='")
                  && Contains(r.reason.value, branchName))
            && (reviews.requireCodeOwnerReviews && reviews.dismissStaleReviews
                && Check.CanBeBypassed(reviews) ==>
                  StartsWith(r.reason.value, "pull request reviews can be bypassed, branch_name='")
                  && Contains(r.reason.value, branchName))
            && (CodeOwnerReviewsEnforced(Some(reviews)) ==>
                  r == CheckSignedCommitsRequired(branch))
  {
  }

  // ----- Source branch protection -----------------------------------------

  /** A commit that is not in the target's history and whose signature is not verified. */
  predicate UnsignedUnique(commit: Commit, targetShas: set<string>) {
    commit.sha !in targetShas && !commit.verified
  }

  /** The source commits that are unsigned and unique to the source, in listing order. */
  function UnsignedUniqueCommits(commits: seq<Commit>, targetShas: set<string>): (found: seq<Commit>)
    ensures forall c :: c in found <==> c in commits && UnsignedUnique(c, targetShas)
  {
    if commits == [] then []
    else
      (if UnsignedUnique(commits[0], targetShas) then [commits[0]] else [])
      + UnsignedUniqueCommits(commits[1..], targetShas)
  }

  /** The first source commit, in listing order, that is unsigned and unique to the source. */
  function FirstUnsignedUnique(commits: seq<Commit>, targetShas: set<string>): (first: Option<Commit>)
    ensures first.None? <==> forall c :: c in commits ==> !UnsignedUnique(c, targetShas)
    ensures first.Some? ==>
              exists i :: 0 <= i < |commits| && commits[i] == first.value
                          && UnsignedUnique(commits[i], targetShas)
                          && forall j :: 0 <= j < i ==> !UnsignedUnique(commits[j], targetShas)
  {
    if commits == [] then None
    else if UnsignedUnique(commits[0], targetShas) then Some(commits[0])
    else FirstUnsignedUnique(commits[1..], targetShas)
  }

  /** The first unsigned unique commit is the head of the filtered listing. */
  lemma {:induction false} FirstUnsignedIsFirstOfFilter(commits: seq<Commit>, targetShas: set<string>)
    ensures var found := UnsignedUniqueCommits(commits, targetShas);
            FirstUnsignedUnique(commits, targetShas) == if found == [] then None else Some(found[0])
  {
    if commits != [] && !UnsignedUnique(commits[0], targetShas) {
      FirstUnsignedIsFirstOfFilter(commits[1..], targetShas);
      assert UnsignedUniqueCommits(commits, targetShas) == UnsignedUniqueCommits(commits[1..], targetShas);
    }
  }

  /** A branch compared with its own history has no unique commits, so none is reported. */
  lemma BranchAgainstItselfHasNoUnsigned(commits: seq<Commit>)
    ensures FirstUnsignedUnique(commits, Shas(commits)).None?
  {
  }

  /** `f"commit is not signed, {branch.name=!r}, {first_unsigned_commit.sha=!r}"`. */
  function UnsignedCommitReason(branchName: string, sha: string): (reason: string)
    ensures reason != []
    ensures Contains(reason, branchName) && Contains(reason, sha)
    ensures StartsWith(reason, "commit is not signed, branch.name='")
  {
    var prefix := "commit is not signed, branch.name=";
    var middle := ", first_unsigned_commit.sha=";
    var reason := prefix + Repr(branchName) + middle + Repr(sha);
    ContainsExtend(prefix, Repr(branchName), middle + Repr(sha), branchName);
    ContainsExtend(prefix + Repr(branchName) + middle, Repr(sha), "", sha);
    assert prefix + Repr(branchName) + (middle + Repr(sha)) == reason;
    assert prefix + Repr(branchName) + middle + Repr(sha) + "" == reason;
    assert reason[..|"commit is not signed, branch.name='"|] == "commit is not signed, branch.name='";
    reason
  }

  /**
   * `source_branch_protection`, given the source branch record and the commit
   * listings of both branches: a branch from a fork passes; otherwise the
   * branch must be protected (checked first), require signed commits (checked
   * second) and have no unsigned commit that is missing from the target's
   * history, the first of which the reason names.
   */
  function SourceBranchProtection(repositoryName: string, sourceRepositoryName: string, branch: Branch,
                                  sourceCommits: seq<Commit>, targetCommits: seq<Commit>): (r: Report)
    ensures r.Valid()
    ensures r.result == Pass <==>
              || sourceRepositoryName != repositoryName
              || (&& branch.protected && branch.requiredSignatures
                  && forall c :: c in sourceCommits ==> c.sha in Shas(targetCommits) || c.verified)
    ensures sourceRepositoryName == repositoryName && !branch.protected ==>
              r == CheckBranchProtected(branch)
    ensures sourceRepositoryName == repositoryName && branch.protected && !branch.requiredSignatures ==>
              r == CheckSignedCommitsRequired(branch)
    ensures r.result == Fail && branch.protected && branch.requiredSignatures ==>
              var first := FirstUnsignedUnique(sourceCommits, Shas(targetCommits));
              first.Some? && r.reason.value == UnsignedCommitReason(branch.name, first.value.sha)
              && Contains(r.reason.value, first.value.sha) && Contains(r.reason.value, branch.name)
  {
    if sourceRepositoryName != repositoryName then Passed
    else
      var protectedReport := CheckBranchProtected(branch);
      if protectedReport.result == Fail then protectedReport
      else
        var signedReport := CheckSignedCommitsRequired(branch);
        if signedReport.result == Fail then signedReport
        else
          match FirstUnsignedUnique(sourceCommits, Shas(targetCommits))
          case Some(first) => Failure(UnsignedCommitReason(branch.name, first.sha))
          case None => Passed
  }

  /**
   * On a branch of the same repository, protection is checked first and
   * signed commits second; each failure gives its own reason, naming the
   * branch, before any commit is looked at.
   */
  lemma SourceBranchProtectionOrder(repositoryName: string, branch: Branch,
                                    sourceCommits: seq<Commit>, targetCommits: seq<Commit>)
    ensures var r := SourceBranchProtection(repositoryName, repositoryName, branch, sourceCommits, targetCommits);
            && (!branch.protected ==>
                  r.result == Fail && Contains(r.reason.value, branch.name)
                  && StartsWith(r.reason.value, "branch protection not enabled, branch.name='"))
            && (branch.protected && !branch.requiredSignatures ==>
                  r.result == Fail && Contains(r.reason.value, branch.name)
                  && StartsWith(r.reason.value, "signed commits not required, branch.name='"))
  {
  }

  /** A branch from the same repository whose listing equals the target's passes once protected and signed. */
  lemma SourceEqualToTargetPasses(repositoryName: string, branch: Branch, commits: seq<Commit>)
    requires branch.protected && branch.requiredSignatures
    ensures SourceBranchProtection(repositoryName, repositoryName, branch, commits, commits) == Passed
  {
    BranchAgainstItselfHasNoUnsigned(commits);
  }

  // ----- Collaborators ----------------------------------------------------

  /**
   * `collaborators`: fails exactly when an outside collaborator holds a role
   * other than "read", naming every such login.
   */
  function Collaborators(outsideCollaborators: seq<Collaborator>): (r: Report)
    ensures r.Valid()
    ensures r.result == Fail <==> exists c :: c in outsideCollaborators && c.roleName != "read"
    ensures r.result == Fail ==>
              forall c :: c in outsideCollaborators && c.roleName != "read" ==>
                Contains(r.reason.value, c.login)
    ensures r.result == Fail ==>
              r.reason.value == Check.CollaboratorsReason(Check.HigherPermissionLogins(outsideCollaborators))
  {
    var logins := Check.HigherPermissionLogins(outsideCollaborators);
    if logins != [] then
      var reason := Check.CollaboratorsReason(logins);
      Check.OffendingLoginsNamed(outsideCollaborators, logins, reason);
      Failure(reason)
    else
      Check.HigherPermissionLoginsMembers(outsideCollaborators);
      assert forall c :: c in outsideCollaborators && c.roleName != "read" ==> c.login in logins;
      Passed
  }

  /** The check.py audit fails on the same listings, with the failure banner ahead of the same reason. */
  lemma CollaboratorsBannerOnly(outsideCollaborators: seq<Collaborator>)
    ensures Check.Collaborators(outsideCollaborators).result == Collaborators(outsideCollaborators).result
    ensures Collaborators(outsideCollaborators).result == Fail ==>
              Check.Collaborators(outsideCollaborators).reason.value
              == Check.FailureMessage + Collaborators(outsideCollaborators).reason.value
  {
  }

  // ----- Fork execution authorization -------------------------------------

  /**
   * `execute_job`, given the collaborators with maintain permission and the
   * open pull requests: a branch of the same repository passes; otherwise the
   * first open pull request for the branch must carry a comment, outside
   * quoted lines, with the authorization string for the commit, from a
   * maintainer.
   */
  function ExecuteJob(repositoryName: string, sourceRepositoryName: string, branchName: string,
                      commitSha: string, maintainCollaborators: seq<Collaborator>,
                      openPulls: seq<PullRequest>): (r: Report)
    ensures r.Valid()
    ensures r.result == Pass <==>
              || repositoryName == sourceRepositoryName
              || (Check.FindPull(openPulls, branchName).Some?
                  && exists c :: c in Check.FindPull(openPulls, branchName).value.comments
                                 && Check.Approves(c, commitSha, Logins(maintainCollaborators)))
  {
    if repositoryName == sourceRepositoryName then Passed
    else
      Check.ForkAuthorization("", ExecuteJobMessage,
                              "authorization comment from a user that is not a maintainer or above - ",
                              branchName, commitSha, Logins(maintainCollaborators), openPulls)
  }

  /**
   * On a branch from a fork whose owner cannot push, the two variants agree
   * whenever the pushers and the maintainers are the same users.
   */
  lemma ExecuteJobVariantsAgreeOnExternalForks(repositoryName: string, sourceRepositoryName: string,
                                               branchName: string, commitSha: string,
                                               collaborators: seq<Collaborator>,
                                               openPulls: seq<PullRequest>)
    requires Check.BranchExternalFork(repositoryName, sourceRepositoryName, Logins(collaborators))
    ensures ExecuteJob(repositoryName, sourceRepositoryName, branchName, commitSha, collaborators,
                       openPulls).result
            == Check.ExecuteJob(repositoryName, sourceRepositoryName, branchName, commitSha,
                                collaborators, openPulls).result
  {
  }

  // ----- all_ -------------------------------------------------------------

  /** The policy `all_` is given: every check, or a caller's document. */
  datatype PolicyChoice = AllPolicies | Custom(document: Policy.Json)

  /**
   * The repository facts the checks of `all_` read, as fetched for the
   * target branch, the source branch and the repository.
   */
  datatype Facts = Facts(
    targetBranch: Branch,
    sourceBranch: Branch,
    targetCommits: seq<Commit>,
    sourceCommits: seq<Commit>,
    outsideCollaborators: seq<Collaborator>,
    maintainCollaborators: seq<Collaborator>,
    openPulls: seq<PullRequest>)

  /** The names of a run, as `all_` receives them. */
  datatype Run = Run(
    repositoryName: string,
    sourceRepositoryName: string,
    targetBranchName: string,
    sourceBranchName: string,
    commitSha: string)

  /** The flat document `all_` gates on by default: every pull request property, enabled. */
  const FlatAll: Policy.Json := Policy.JObject(Policy.EnabledRules(Policy.PropertyNames(Policy.PullRequest)))

  /**
   * The guard `all_` puts on a check: the property is a top-level key of the
   * document, holding a rule whose `enabled` flag is set. An absent or
   * malformed entry reads as disabled.
   */
  function Gate(document: Policy.Json, property: Policy.PullRequestProperty): (enabled: bool)
    ensures enabled ==> document.JObject? && property.Name() in document.fields
                        && Policy.ValidRule(document.fields[property.Name()])
    ensures !document.JObject? || property.Name() !in document.fields ==> !enabled
    ensures document.JObject? && property.Name() in document.fields
            && Policy.ValidRule(document.fields[property.Name()])
            ==> (enabled <==> document.fields[property.Name()].fields[Policy.EnabledKey].b)
  {
    && document.JObject?
    && property.Name() in document.fields
    && var rule := document.fields[property.Name()];
       rule.JObject? && Policy.EnabledKey in rule.fields && rule.fields[Policy.EnabledKey] == Policy.JBool(true)
  }

  /** The report of one check of `all_`, on the facts of the run. */
  function RunCheck(property: Policy.PullRequestProperty, run: Run, facts: Facts): (r: Report)
    ensures r.Valid()
  {
    match property
    case TargetBranchProtection => TargetBranchProtection(run.targetBranchName, facts.targetBranch)
    case SourceBranchProtection =>
      SourceBranchProtection(run.repositoryName, run.sourceRepositoryName, facts.sourceBranch,
                             facts.sourceCommits, facts.targetCommits)
    case Collaborators => Collaborators(facts.outsideCollaborators)
    case ExecuteJob =>
      ExecuteJob(run.repositoryName, run.sourceRepositoryName, run.sourceBranchName, run.commitSha,
                 facts.maintainCollaborators, facts.openPulls)
  }

  /** The reports the four checks of `all_` would give, one per property. */
  datatype Outcomes = Outcomes(target: Report, source: Report, collaborators: Report, executeJob: Report) {
    function Of(property: Policy.PullRequestProperty): Report {
      match property
      case TargetBranchProtection => target
      case SourceBranchProtection => source
      case Collaborators => collaborators
      case ExecuteJob => executeJob
    }

    predicate Valid() {
      target.Valid() && source.Valid() && collaborators.Valid() && executeJob.Valid()
    }
  }

  /** The report of every check on the facts of the run. */
  function Evaluate(run: Run, facts: Facts): (outcomes: Outcomes)
    ensures outcomes.Valid()
    ensures forall property :: outcomes.Of(property) == RunCheck(property, run, facts)
  {
    Outcomes(RunCheck(Policy.TargetBranchProtection, run, facts),
             RunCheck(Policy.SourceBranchProtection, run, facts),
             RunCheck(Policy.PullRequestProperty.Collaborators, run, facts),
             RunCheck(Policy.ExecuteJob, run, facts))
  }

  /** The order in which `all_` runs the checks. */
  const CheckOrder: seq<Policy.PullRequestProperty> :=
    [Policy.TargetBranchProtection, Policy.SourceBranchProtection, Policy.PullRequestProperty.Collaborators, Policy.ExecuteJob]

  /** The reports of the checks the document enables, in the given order. */
  function EnabledReports(document: Policy.Json, properties: seq<Policy.PullRequestProperty>,
                          outcomes: Outcomes): (reports: seq<Report>)
    ensures forall r :: r in reports ==> exists p :: p in properties && Gate(document, p) && r == outcomes.Of(p)
    ensures forall p :: p in properties && Gate(document, p) ==> outcomes.Of(p) in reports
  {
    if properties == [] then []
    else
      (if Gate(document, properties[0]) then [outcomes.Of(properties[0])] else [])
      + EnabledReports(document, properties[1..], outcomes)
  }

  /** The first failing report, or a pass when none fails. */
  function FirstFailure(reports: seq<Report>): (r: Report)
    ensures r.result == Pass <==> forall x :: x in reports ==> x.result == Pass
    ensures r.result == Pass ==> r == Passed
    ensures r.result == Fail ==>
              exists i :: 0 <= i < |reports| && reports[i] == r
                          && forall j :: 0 <= j < i ==> reports[j].result == Pass
    ensures (forall x :: x in reports ==> x.Valid()) ==> r.Valid()
  {
    if reports == [] then Passed
    else if reports[0].result == Fail then reports[0]
    else FirstFailure(reports[1..])
  }

  /**
   * The guarded early returns of `all_`: each check, in the given order, runs
   * when the document enables it, and the first failing one is returned.
   */
  function RunEnabled(document: Policy.Json, properties: seq<Policy.PullRequestProperty>,
                      outcomes: Outcomes): (r: Report)
    ensures outcomes.Valid() ==> r.Valid()
    ensures r.result == Pass ==> r == Passed
  {
    if properties == [] then Passed
    else
      var report := outcomes.Of(properties[0]);
      if Gate(document, properties[0]) && report.result == Fail then report
      else RunEnabled(document, properties[1..], outcomes)
  }

  /** The document `all_` gates on once the choice has been validated. */
  function UsedDocument(choice: PolicyChoice): Policy.Json {
    if choice.AllPolicies? then FlatAll else choice.document
  }

  /**
   * `all_`: a custom document is validated first and an invalid one fails
   * with the validator's reason; then target branch protection, source branch
   * protection, collaborators and execute job run in that order, each only
   * when the document enables it, and the first failure is returned.
   */
  function All(run: Run, choice: PolicyChoice, facts: Facts): (r: Report)
    ensures r.Valid()
  {
    if choice.Custom? && !Policy.Check(choice.document).result then
      Report(Fail, Policy.Check(choice.document).reason)
    else RunEnabled(UsedDocument(choice), CheckOrder, Evaluate(run, facts))
  }

  // ----- Gating, on any document and any reports --------------------------

  /** The early returns give the first failure among the enabled reports, and a pass when there is none. */
  lemma {:induction false} RunEnabledIsFirstEnabledFailure(document: Policy.Json,
                                                           properties: seq<Policy.PullRequestProperty>,
                                                           outcomes: Outcomes)
    ensures RunEnabled(document, properties, outcomes)
            == FirstFailure(EnabledReports(document, properties, outcomes))
  {
    if properties != [] {
      RunEnabledIsFirstEnabledFailure(document, properties[1..], outcomes);
      var head := if Gate(document, properties[0]) then [outcomes.Of(properties[0])] else [];
      FirstFailureAppend(head, EnabledReports(document, properties[1..], outcomes));
    }
  }

  /** A failure in the first part decides; otherwise the second part does. */
  lemma FirstFailureAppend(a: seq<Report>, b: seq<Report>)
    requires |a| <= 1
    ensures FirstFailure(a + b) == if a != [] && a[0].result == Fail then a[0] else FirstFailure(b)
  {
    if a != [] {
      assert (a + b)[1..] == b;
    } else {
      assert a + b == b;
    }
  }

  /** The run passes exactly when every check the document enables passes. */
  lemma {:induction false} RunEnabledPassesIffEnabledPass(document: Policy.Json,
                                                          properties: seq<Policy.PullRequestProperty>,
                                                          outcomes: Outcomes)
    ensures RunEnabled(document, properties, outcomes).result == Pass <==>
              forall i :: 0 <= i < |properties| && Gate(document, properties[i]) ==>
                outcomes.Of(properties[i]).result == Pass
  {
    if properties != [] {
      var rest := properties[1..];
      RunEnabledPassesIffEnabledPass(document, rest, outcomes);
      assert forall i :: 0 < i < |properties| ==> properties[i] == rest[i - 1];
    }
  }

  /**
   * Only the checks the document enables decide the early returns: a
   * failure is the report of an enabled check, and every enabled check
   * before it passed.
   */
  lemma {:induction false} RunEnabledFailureIsFirstEnabledFailure(document: Policy.Json,
                                                                  properties: seq<Policy.PullRequestProperty>,
                                                                  outcomes: Outcomes)
    ensures var r := RunEnabled(document, properties, outcomes);
            r.result == Fail ==>
              exists i :: 0 <= i < |properties| && Gate(document, properties[i])
                          && r == outcomes.Of(properties[i])
                          && forall j :: 0 <= j < i && Gate(document, properties[j]) ==>
                               outcomes.Of(properties[j]).result == Pass
  {
    var r := RunEnabled(document, properties, outcomes);
    if properties != [] && r.result == Fail
       && !(Gate(document, properties[0]) && outcomes.Of(properties[0]).result == Fail) {
      var rest := properties[1..];
      RunEnabledFailureIsFirstEnabledFailure(document, rest, outcomes);
      var i :| 0 <= i < |rest| && Gate(document, rest[i]) && r == outcomes.Of(rest[i])
               && forall j :: 0 <= j < i && Gate(document, rest[j]) ==> outcomes.Of(rest[j]).result == Pass;
      assert forall j :: 0 < j <= i ==> properties[j] == rest[j - 1];
      assert properties[i + 1] == rest[i];
    }
  }

  /** A failing check the document does not enable is never the result, unless an enabled check reports the same. */
  lemma DisabledCheckNeverDecides(document: Policy.Json, outcomes: Outcomes, property: Policy.PullRequestProperty)
    requires !Gate(document, property)
    requires outcomes.Of(property).result == Fail
    ensures RunEnabled(document, CheckOrder, outcomes) != outcomes.Of(property)
            || exists p :: p in CheckOrder && Gate(document, p) && outcomes.Of(p) == outcomes.Of(property)
  {
    RunEnabledFailureIsFirstEnabledFailure(document, CheckOrder, outcomes);
  }

  /** When a document enables a single check of the order, that check alone decides. */
  lemma {:induction false} SingleEnabledCheckDecides(document: Policy.Json,
                                                     properties: seq<Policy.PullRequestProperty>,
                                                     property: Policy.PullRequestProperty,
                                                     outcomes: Outcomes)
    requires forall q :: q in properties && Gate(document, q) ==> q == property
    ensures RunEnabled(document, properties, outcomes)
            == if property in properties && Gate(document, property) && outcomes.Of(property).result == Fail
               then outcomes.Of(property) else Passed
  {
    if properties != [] {
      var head, rest := properties[0], properties[1..];
      assert properties == [head] + rest;
      assert forall q :: q in rest ==> q in properties;
      SingleEnabledCheckDecides(document, rest, property, outcomes);
      if Gate(document, head) {
        assert head in properties;
      }
    }
  }

  /**
   * A document that enables the collaborators check alone runs only that
   * check: failures of the other three never decide the result.
   */
  lemma OnlyCollaboratorsEnabled(outcomes: Outcomes)
    ensures var document := Policy.JObject(map[Policy.PullRequestProperty.Collaborators.Name() := Policy.EnabledRule]);
            RunEnabled(document, CheckOrder, outcomes)
            == if outcomes.collaborators.result == Fail then outcomes.collaborators else Passed
  {
    var document := Policy.JObject(map[Policy.PullRequestProperty.Collaborators.Name() := Policy.EnabledRule]);
    var collaborators := Policy.PullRequestProperty.Collaborators;
    forall q | q in CheckOrder && Gate(document, q) ensures q == collaborators {
      assert q.Name() in document.fields;
    }
    assert collaborators in CheckOrder && Gate(document, collaborators);
    SingleEnabledCheckDecides(document, CheckOrder, collaborators, outcomes);
  }

  /** When every listed check is enabled, the enabled reports are the reports of all of them, in order. */
  lemma {:induction false} EnabledReportsAllGated(document: Policy.Json,
                                                  properties: seq<Policy.PullRequestProperty>,
                                                  outcomes: Outcomes)
    requires forall p :: p in properties ==> Gate(document, p)
    ensures |EnabledReports(document, properties, outcomes)| == |properties|
    ensures forall i :: 0 <= i < |properties| ==>
              EnabledReports(document, properties, outcomes)[i] == outcomes.Of(properties[i])
  {
    if properties != [] {
      assert properties[0] in properties;
      var rest := properties[1..];
      assert forall p :: p in rest ==> p in properties;
      EnabledReportsAllGated(document, rest, outcomes);
      assert forall i :: 0 < i < |properties| ==> properties[i] == rest[i - 1];
    }
  }

  // ----- all_, on the facts of a run ---------------------------------------

  /**
   * On an accepted policy, `all_` returns the first failure among the enabled
   * checks in check order, and a pass when none of them fails.
   */
  lemma AllIsFirstEnabledFailure(run: Run, choice: PolicyChoice, facts: Facts)
    requires choice.Custom? ==> Policy.IsValid(choice.document)
    ensures All(run, choice, facts)
            == FirstFailure(EnabledReports(UsedDocument(choice), CheckOrder, Evaluate(run, facts)))
  {
    RunEnabledIsFirstEnabledFailure(UsedDocument(choice), CheckOrder, Evaluate(run, facts));
  }

  /** An invalid custom document fails with the validator's reason before any check runs. */
  lemma InvalidCustomDocumentFails(run: Run, document: Policy.Json, facts: Facts)
    requires !Policy.IsValid(document)
    ensures All(run, Custom(document), facts) == Report(Fail, Policy.Check(document).reason)
    ensures StartsWith(All(run, Custom(document), facts).reason.value, Policy.InvalidPrefix)
  {
  }

  /** Under a document that enables every check, the first failure among all four decides. */
  lemma EveryCheckEnabledRunsEveryCheck(document: Policy.Json, outcomes: Outcomes)
    requires forall p :: Gate(document, p)
    ensures RunEnabled(document, CheckOrder, outcomes)
            == FirstFailure([outcomes.target, outcomes.source, outcomes.collaborators, outcomes.executeJob])
  {
    var reports := [outcomes.target, outcomes.source, outcomes.collaborators, outcomes.executeJob];
    var order := CheckOrder;
    assert order[0] == Policy.TargetBranchProtection && Gate(document, order[0]);
    assert order[1..][0] == Policy.SourceBranchProtection && Gate(document, order[1..][0]);
    assert order[2..][0] == Policy.PullRequestProperty.Collaborators && Gate(document, order[2..][0]);
    assert order[3..][0] == Policy.ExecuteJob && Gate(document, order[3..][0]);
    assert order[1..][1..] == order[2..] && order[2..][1..] == order[3..] && order[3..][1..] == [];
    assert reports[1..][1..] == reports[2..] && reports[2..][1..] == reports[3..] && reports[3..][1..] == [];
    assert RunEnabled(document, order[3..], outcomes) == FirstFailure(reports[3..]);
    assert RunEnabled(document, order[2..], outcomes) == FirstFailure(reports[2..]);
    assert RunEnabled(document, order[1..], outcomes) == FirstFailure(reports[1..]);
  }

  /** Under the default document every check is enabled, so the first failure among all four decides. */
  lemma FlatAllRunsEveryCheck(outcomes: Outcomes)
    ensures RunEnabled(FlatAll, CheckOrder, outcomes)
            == FirstFailure([outcomes.target, outcomes.source, outcomes.collaborators, outcomes.executeJob])
  {
    FlatAllGatesEveryCheck();
    EveryCheckEnabledRunsEveryCheck(FlatAll, outcomes);
  }

  /**
   * The default policy enables every check, so `all_` returns the first
   * failure among the reports of all four checks, in check order.
   */
  lemma DefaultRunsEveryCheck(run: Run, facts: Facts)
    ensures var outcomes := Evaluate(run, facts);
            All(run, AllPolicies, facts)
            == FirstFailure([outcomes.target, outcomes.source, outcomes.collaborators, outcomes.executeJob])
  {
    FlatAllRunsEveryCheck(Evaluate(run, facts));
  }

  /** The default document enables every pull request check. */
  lemma FlatAllGatesEveryCheck()
    ensures forall p: Policy.PullRequestProperty :: Gate(FlatAll, p)
  {
    forall p: Policy.PullRequestProperty ensures Gate(FlatAll, p) {
      assert p.Name() in Policy.PropertyNames(Policy.PullRequest);
    }
  }

  /** When no enabled check fails, `all_` passes without a reason. */
  lemma PassesWhenNoEnabledCheckFails(run: Run, choice: PolicyChoice, facts: Facts)
    requires choice.Custom? ==> Policy.IsValid(choice.document)
    requires forall p :: Gate(UsedDocument(choice), p) ==> RunCheck(p, run, facts).result == Pass
    ensures All(run, choice, facts) == Passed
  {
    AllIsFirstEnabledFailure(run, choice, facts);
  }

  /**
   * A valid custom document keys its rules by job type, never by property,
   * so the flat gates of `all_` see no enabled check and the run passes
   * whatever the facts.
   */
  lemma ValidCustomDocumentGatesNothing(run: Run, document: Policy.Json, facts: Facts)
    requires Policy.IsValid(document)
    ensures forall p: Policy.PullRequestProperty :: !Gate(document, p)
    ensures All(run, Custom(document), facts) == Passed
  {
    forall p: Policy.PullRequestProperty ensures !Gate(document, p) {
      assert p.Name() !in Policy.JobTypeNames;
    }
    AllIsFirstEnabledFailure(run, Custom(document), facts);
  }
}

=== FILE: database.dfy ===
/**
 * The one-time runner token store of database.py: a process-wide set of
 * tokens. Adding a token makes it valid; checking a valid token consumes it,
 * so each token authorizes exactly one check.
 */
module Database {
  /** The set of issued, not yet used runner tokens. */
  class TokenStore {
    var tokens: set<string>

    /** The store starts out empty. */
    constructor ()
      ensures tokens == {}
    {
      tokens := {};
    }

    /** `add_token`: the token becomes valid; adding a valid token changes nothing. */
    method AddToken(token: string)
      modifies this
      ensures tokens == old(tokens) + {token}
      ensures token in old(tokens) ==> tokens == old(tokens)
    {
      tokens := tokens + {token};
    }

    /**
     * `check_token`: reports whether the token is valid and consumes it; every
     * other token stays, and an unknown token leaves the store unchanged.
     */
    method CheckToken(token: string) returns (valid: bool)
      modifies this
      ensures valid <==> token in old(tokens)
      ensures tokens == old(tokens) - {token}
      ensures !valid ==> tokens == old(tokens)
      ensures forall other :: other != token ==> (other in tokens <==> other in old(tokens))
    {
      if token in tokens {
        tokens := tokens - {token};
        valid := true;
      } else {
        valid := false;
      }
    }
  }

  /**
   * An added token is accepted by the next check and rejected by the one
   * after it, and the store ends without it.
   */
  method AddThenCheckTwice(store: TokenStore, token: string) returns (first: bool, second: bool)
    modifies store
    ensures first && !second
    ensures store.tokens == old(store.tokens) - {token}
  {
    store.AddToken(token);
    first := store.CheckToken(token);
    second := store.CheckToken(token);
  }

  /** A consumed token is valid again once it is added again. */
  method ReAddRestores(store: TokenStore, token: string) returns (valid: bool)
    modifies store
    ensures valid
    ensures store.tokens == old(store.tokens) - {token}
  {
    store.AddToken(token);
    var first := store.CheckToken(token);
    store.AddToken(token);
    valid := store.CheckToken(token);
  }
}

=== FILE: policy.dfy ===
/**
 * The policy document: which checks are enabled for each job type. A
 * document is a JSON value; `Check` validates its structure and `Enabled`
 * looks a property up in a validated document.
 *
 * The structural rules are those the schema pins down: an object at the top
 * level whose keys are job types, an object per job type whose keys are that
 * job type's properties, and per property an object with a required boolean
 * `enabled`.
 */
module Policy {
  import opened Strings

  datatype Json =
    | JNull
    | JBool(b: bool)
    | JInt(n: int)
    | JString(s: string)
    | JArray(items: seq<Json>)
    | JObject(fields: map<string, Json>)

  datatype JobType = PullRequest | WorkflowDispatch {
    function Name(): string {
      match this
      case PullRequest => "pull_request"
      case WorkflowDispatch => "workflow_dispatch"
    }
  }

  const JobTypeNames: set<string> := {"pull_request", "workflow_dispatch"}

  function JobTypeNamed(name: string): (jobType: JobType)
    requires name in JobTypeNames
    ensures jobType.Name() == name
  {
    if name == "pull_request" then PullRequest else WorkflowDispatch
  }

  datatype PullRequestProperty =
    | TargetBranchProtection
    | SourceBranchProtection
    | Collaborators
    | ExecuteJob
  {
    function Name(): string {
      match this
      case TargetBranchProtection => "target_branch_protection"
      case SourceBranchProtection => "source_branch_protection"
      case Collaborators => "collaborators"
      case ExecuteJob => "execute_job"
    }
  }

  datatype WorkflowDispatchProperty = BranchProtection | Collaborators {
    function Name(): string {
      match this
      case BranchProtection => "branch_protection"
      case Collaborators => "collaborators"
    }
  }

  /** The names of the properties a job type can toggle. */
  function PropertyNames(jobType: JobType): (names: set<string>)
    ensures jobType.PullRequest? ==> forall p: PullRequestProperty :: p.Name() in names
    ensures jobType.WorkflowDispatch? ==> forall p: WorkflowDispatchProperty :: p.Name() in names
    ensures jobType.PullRequest? ==> forall n :: n in names ==> exists p: PullRequestProperty :: p.Name() == n
    ensures jobType.WorkflowDispatch? ==> forall n :: n in names ==> exists p: WorkflowDispatchProperty :: p.Name() == n
  {
    match jobType
    case PullRequest =>
      assert TargetBranchProtection.Name() == "target_branch_protection";
      assert SourceBranchProtection.Name() == "source_branch_protection";
      assert PullRequestProperty.Collaborators.Name() == "collaborators";
      assert ExecuteJob.Name() == "execute_job";
      {"target_branch_protection", "source_branch_protection", "collaborators", "execute_job"}
    case WorkflowDispatch =>
      assert BranchProtection.Name() == "branch_protection";
      assert WorkflowDispatchProperty.Collaborators.Name() == "collaborators";
      {"branch_protection", "collaborators"}
  }

  const EnabledKey := "enabled"
  const EnabledRule: Json := JObject(map[EnabledKey := JBool(true)])

  function EnabledRules(names: set<string>): map<string, Json>
  {
    map name | name in names :: EnabledRule
  }

  /** The document that enables every property of every job type. */
  const All: Json := JObject(map[
    PullRequest.Name() := JObject(EnabledRules(PropertyNames(PullRequest))),
    WorkflowDispatch.Name() := JObject(EnabledRules(PropertyNames(WorkflowDispatch))) ])

  /** The outcome of validating a document. */
  datatype Report = Report(result: bool, reason: Option<string>)

  // ----- The schema, as a reference definition ----------------------------

  ghost predicate ValidRule(rule: Json) {
    rule.JObject? && EnabledKey in rule.fields && rule.fields[EnabledKey].JBool?
  }

  ghost predicate ValidJobPolicy(jobType: JobType, value: Json) {
    && value.JObject?
    && forall name :: name in value.fields ==>
         name in PropertyNames(jobType) && ValidRule(value.fields[name])
  }

  ghost predicate IsValid(document: Json) {
    && document.JObject?
    && forall key :: key in document.fields ==>
         key in JobTypeNames && ValidJobPolicy(JobTypeNamed(key), document.fields[key])
  }

  // ----- The validator ----------------------------------------------------

  const AdditionalProperties := "Additional properties are not allowed"
  const EnabledRequired := "'enabled' is a required property"

  function NotOfType(typeName: string): string {
    "is not of type '" + typeName + "'"
  }

  /** The first violated rule, checked level by level from the top of the document. */
  function SchemaError(document: Json): (error: Option<string>)
    ensures error.None? <==> IsValid(document)
  {
    if !document.JObject? then Some(NotOfType("object"))
    else
      var jobs := document.fields;
      if exists key | key in jobs :: key !in JobTypeNames then Some(AdditionalProperties)
      else if exists key | key in jobs :: !jobs[key].JObject? then Some(NotOfType("object"))
      else if exists key | key in jobs :: exists name | name in jobs[key].fields ::
        name !in PropertyNames(JobTypeNamed(key))
      then Some(AdditionalProperties)
      else if exists key | key in jobs :: exists name | name in jobs[key].fields ::
        !jobs[key].fields[name].JObject?
      then Some(NotOfType("object"))
      else if exists key | key in jobs :: exists name | name in jobs[key].fields ::
        EnabledKey !in jobs[key].fields[name].fields
      then Some(EnabledRequired)
      else if exists key | key in jobs :: exists name | name in jobs[key].fields ::
        !jobs[key].fields[name].fields[EnabledKey].JBool?
      then Some(NotOfType("boolean"))
      else None
  }

  const InvalidPrefix := "invalid policy document"

  /** `f"invalid policy document, {exc=}"` for a validation error with this message. */
  function InvalidReason(message: string): (reason: string)
    ensures StartsWith(reason, InvalidPrefix)
    ensures Contains(reason, message)
  {
    var middle := ", exc=ValidationError(";
    var reason := InvalidPrefix + (middle + Repr(message) + ")");
    StartsWithConcat(InvalidPrefix, middle + Repr(message) + ")");
    ContainsExtend(InvalidPrefix + middle, Repr(message), ")", message);
    assert InvalidPrefix + middle + Repr(message) + ")" == reason;
    reason
  }

  /** `policy.check`: valid documents pass without a reason, invalid ones fail with one. */
  function Check(document: Json): (r: Report)
    ensures r.result <==> IsValid(document)
    ensures r.result <==> r.reason.None?
    ensures !r.result ==> StartsWith(r.reason.value, InvalidPrefix)
  {
    match SchemaError(document)
    case None => Report(true, None)
    case Some(message) => Report(false, Some(InvalidReason(message)))
  }

  // ----- Lookup -----------------------------------------------------------

  /**
   * `policy.enabled`: the job type must be in the document, the property
   * under it, and its `enabled` flag set; anything absent means disabled.
   */
  function Enabled(jobType: JobType, name: string, document: Json): (enabled: bool)
    requires IsValid(document)
    ensures enabled ==> name in PropertyNames(jobType)
  {
    var jobs := document.fields;
    && jobType.Name() in jobs
    && name in jobs[jobType.Name()].fields
    && jobs[jobType.Name()].fields[name].fields[EnabledKey].b
  }

  // ----- Properties -------------------------------------------------------

  /** An absent job type or property reads as disabled; otherwise the stored flag decides. */
  lemma EnabledLookup(jobType: JobType, name: string, document: Json)
    requires IsValid(document)
    ensures jobType.Name() !in document.fields ==> !Enabled(jobType, name, document)
    ensures jobType.Name() in document.fields && name !in document.fields[jobType.Name()].fields
            ==> !Enabled(jobType, name, document)
    ensures jobType.Name() in document.fields && name in document.fields[jobType.Name()].fields
            ==> Enabled(jobType, name, document) ==
                (document.fields[jobType.Name()].fields[name].fields[EnabledKey] == JBool(true))
  {
  }

  /** The ALL document is valid and enables exactly the known properties of every job type. */
  lemma AllEnablesEverything()
    ensures IsValid(All) && Check(All) == Report(true, None)
    ensures forall jobType: JobType, name: string ::
              Enabled(jobType, name, All) <==> name in PropertyNames(jobType)
  {
    assert IsValid(All) by {
      forall key | key in All.fields
        ensures key in JobTypeNames && ValidJobPolicy(JobTypeNamed(key), All.fields[key])
      {
        var jobType := JobTypeNamed(key);
        assert All.fields[key] == JObject(EnabledRules(PropertyNames(jobType)));
      }
    }
    forall jobType: JobType, name: string
      ensures Enabled(jobType, name, All) <==> name in PropertyNames(jobType)
    {
      assert All.fields[jobType.Name()] == JObject(EnabledRules(PropertyNames(jobType)));
    }
  }

  /** The empty document is valid. */
  lemma EmptyDocumentValid()
    ensures Check(JObject(map[])) == Report(true, None)
  {
  }

  /** A top-level key that is not a job type makes the document invalid. */
  lemma UnknownJobTypeInvalid(document: Json, key: string)
    requires document.JObject? && key in document.fields && key !in JobTypeNames
    ensures !Check(document).result
    ensures Contains(Check(document).reason.value, AdditionalProperties)
  {
  }

  /**
   * A property a job type does not know makes the document invalid, and so
   * does a property object without `enabled`.
   */
  lemma UnknownPropertyInvalid(jobType: JobType, name: string)
    requires name !in PropertyNames(jobType)
    ensures var r := Check(JObject(map[jobType.Name() := JObject(map[name := EnabledRule])]));
            !r.result && Contains(r.reason.value, AdditionalProperties)
  {
    var document := JObject(map[jobType.Name() := JObject(map[name := EnabledRule])]);
    var jobs := document.fields;
    assert jobType.Name() in jobs && JobTypeNamed(jobType.Name()) == jobType;
    assert name in jobs[jobType.Name()].fields;
    assert SchemaError(document) == Some(AdditionalProperties);
  }

  lemma MissingEnabledInvalid(jobType: JobType, name: string)
    requires name in PropertyNames(jobType)
    ensures var r := Check(JObject(map[jobType.Name() := JObject(map[name := JObject(map[])])]));
            !r.result && Contains(r.reason.value, EnabledRequired)
  {
    var document := JObject(map[jobType.Name() := JObject(map[name := JObject(map[])])]);
    var jobs := document.fields;
    assert jobType.Name() in jobs && JobTypeNamed(jobType.Name()) == jobType;
    assert name in jobs[jobType.Name()].fields;
    assert SchemaError(document) == Some(EnabledRequired);
  }

  /** A single known property with `{"enabled": true}` is valid, and it is then enabled. */
  lemma SingleEnabledPropertyValid(jobType: JobType, name: string)
    requires name in PropertyNames(jobType)
    ensures var document := JObject(map[jobType.Name() := JObject(map[name := EnabledRule])]);
            IsValid(document) && Check(document) == Report(true, None)
            && Enabled(jobType, name, document)
  {
    var document := JObject(map[jobType.Name() := JObject(map[name := EnabledRule])]);
    assert JobTypeNamed(jobType.Name()) == jobType;
    assert IsValid(document);
  }
}

=== FILE: provider.dfy ===
/**
 * The repository facts the checks consume, as plain values. In the system
 * they are fetched from the repository host; here they are handed to the
 * checks by the caller.
 */
module Provider {
  import opened Strings

  /** A commit of a branch listing, with the signature verification flag. */
  datatype Commit = Commit(sha: string, verified: bool)

  /**
   * The pull-request review requirement of a protected branch. The bypass
   * allowances are the `users`, `teams` and `apps` lists; a list the host
   * does not return is empty.
   */
  datatype ReviewRequirement = ReviewRequirement(
    requireCodeOwnerReviews: bool,
    dismissStaleReviews: bool,
    bypassUsers: seq<string>,
    bypassTeams: seq<string>,
    bypassApps: seq<string>)

  /**
   * A branch: its protection flag, whether it requires signed commits, and
   * its review requirement (`None` when reviews are not required).
   */
  datatype Branch = Branch(
    name: string,
    protected: bool,
    requiredSignatures: bool,
    reviews: Option<ReviewRequirement>)

  /** An issue comment on a pull request and the login of its author. */
  datatype IssueComment = IssueComment(body: string, author: string)

  /** An open pull request: the ref of its head branch, its number and its comments. */
  datatype PullRequest = PullRequest(headRef: string, number: nat, comments: seq<IssueComment>)

  /** A collaborator as the collaborators listing returns it. */
  datatype Collaborator = Collaborator(login: string, roleName: string)

  /** The logins of a collaborators listing, as a set. */
  function Logins(collaborators: seq<Collaborator>): (logins: set<string>)
    ensures forall c :: c in collaborators ==> c.login in logins
    ensures forall l :: l in logins ==> exists c :: c in collaborators && c.login == l
  {
    set c | c in collaborators :: c.login
  }

  /** The SHAs of a commit listing, as a set. */
  function Shas(commits: seq<Commit>): (shas: set<string>)
    ensures forall c :: c in commits ==> c.sha in shas
    ensures forall s :: s in shas ==> exists c :: c in commits && c.sha == s
  {
    set c | c in commits :: c.sha
  }
}

=== FILE: reports.dfy ===
/**
 * The vocabulary every check and every orchestrator returns: a result and,
 * for a failure, the reason. Both check.py and the package's `__init__.py`
 * declare the same two types.
 */
module Reports {
  import opened Strings

  datatype Result = Pass | Fail

  datatype Report = Report(result: Result, reason: Option<string>) {
    /** A report carries a reason exactly when it is a failure, and the reason is never empty. */
    predicate Valid() {
      && (reason.None? <==> result == Pass)
      && (reason.Some? ==> reason.value != [])
    }
  }

  const Passed: Report := Report(Pass, None)

  function Failure(reason: string): (r: Report)
    requires reason != []
    ensures r.Valid() && r.result == Fail && r.reason == Some(reason)
  {
    Report(Fail, Some(reason))
  }
}

=== FILE: strings.dfy ===
/**
 * String helpers shared by the compliance engine: substring search (Python's
 * `sub in s`), prefixes, and the small pieces of Python's `repr` that the
 * failure reasons are built from.
 */
module Strings {

  datatype Option<T> = None | Some(value: T)

  /** Python's `sub in s`: `sub` occurs somewhere in `s` as a contiguous run. */
  predicate Contains(s: string, sub: string) {
    exists i | 0 <= i <= |s| - |sub| :: OccursAt(s, sub, i)
  }

  /** `sub` occurs in `s` starting at index `i`. */
  predicate OccursAt(s: string, sub: string, i: int) {
    0 <= i <= |s| - |sub| && s[i..i + |sub|] == sub
  }

  /** Python's `s.startswith(prefix)`. */
  predicate StartsWith(s: string, prefix: string) {
    |prefix| <= |s| && s[..|prefix|] == prefix
  }

  lemma ContainsAt(s: string, sub: string, i: int)
    requires OccursAt(s, sub, i)
    ensures Contains(s, sub)
  {
  }

  /** Whatever is placed between two strings occurs in their concatenation. */
  lemma ContainsMiddle(a: string, b: string, c: string)
    ensures Contains(a + b + c, b)
  {
    var s := a + b + c;
    assert s[|a|..|a| + |b|] == b;
    ContainsAt(s, b, |a|);
  }

  /** An occurrence survives adding text on either side. */
  lemma ContainsExtend(a: string, s: string, c: string, sub: string)
    requires Contains(s, sub)
    ensures Contains(a + s + c, sub)
  {
    var i :| 0 <= i <= |s| - |sub| && OccursAt(s, sub, i);
    var t := a + s + c;
    assert t[|a| + i..|a| + i + |sub|] == s[i..i + |sub|];
    ContainsAt(t, sub, |a| + i);
  }

  /** `in` is transitive: an occurrence of an occurrence is an occurrence. */
  lemma ContainsTransitive(s: string, mid: string, sub: string)
    requires Contains(s, mid) && Contains(mid, sub)
    ensures Contains(s, sub)
  {
    var i :| 0 <= i <= |s| - |mid| && OccursAt(s, mid, i);
    var j :| 0 <= j <= |mid| - |sub| && OccursAt(mid, sub, j);
    forall k | 0 <= k < |sub| ensures s[i + j + k] == sub[k] {
      assert s[i..i + |mid|][j + k] == mid[j + k];
      assert mid[j..j + |sub|][k] == mid[j + k];
    }
    assert s[i + j..i + j + |sub|] == sub;
    ContainsAt(s, sub, i + j);
  }

  lemma StartsWithConcat(p: string, rest: string)
    ensures StartsWith(p + rest, p)
  {
    assert (p + rest)[..|p|] == p;
  }

  /** Python's `repr` of a string, without the escaping of quotes and control characters. */
  function Repr(s: string): (r: string)
    ensures |r| == |s| + 2 && Contains(r, s)
  {
    ContainsMiddle("'", s, "'");
    "'" + s + "'"
  }

  /** The items of a Python tuple of strings, as `repr` prints them, separated by ", ". */
  function ReprItems(items: seq<string>): string
  {
    if items == [] then ""
    else if |items| == 1 then Repr(items[0])
    else Repr(items[0]) + ", " + ReprItems(items[1..])
  }

  lemma {:induction false} ReprItemsContains(items: seq<string>, k: int)
    requires 0 <= k < |items|
    ensures Contains(ReprItems(items), items[k])
  {
    if |items| == 1 {
      assert ReprItems(items) == Repr(items[0]);
    } else if k == 0 {
      ContainsExtend("", Repr(items[0]), ", " + ReprItems(items[1..]), items[0]);
      assert "" + Repr(items[0]) + (", " + ReprItems(items[1..])) == ReprItems(items);
    } else {
      ReprItemsContains(items[1..], k - 1);
      ContainsExtend(Repr(items[0]) + ", ", ReprItems(items[1..]), "", items[k]);
      assert Repr(items[0]) + ", " + ReprItems(items[1..]) + "" == ReprItems(items);
    }
  }

  /** Python's `repr` of a tuple of strings: `()`, `('a',)`, `('a', 'b')`. */
  function ReprTuple(items: seq<string>): (r: string)
    ensures forall k :: 0 <= k < |items| ==> Contains(r, items[k])
  {
    var r := "(" + ReprItems(items) + (if |items| == 1 then "," else "") + ")";
    forall k | 0 <= k < |items| ensures Contains(r, items[k]) {
      ReprItemsContains(items, k);
      ContainsExtend("(", ReprItems(items), (if |items| == 1 then "," else "") + ")", items[k]);
      assert "(" + ReprItems(items) + ((if |items| == 1 then "," else "") + ")") == r;
    }
    r
  }

  /** Decimal digits of a natural number, as Python's `str(int)` prints them. */
  function NatToString(n: nat): (r: string)
    ensures |r| > 0
    ensures forall k :: 0 <= k < |r| ==> '0' <= r[k] <= '9'
  {
    var digit := ['0' + (n % 10) as char];
    if n < 10 then digit else NatToString(n / 10) + digit
  }
}
